=== FILE: README.md ===
# torchbraid: the layer-parallel bridge and its drivers, in Dafny

torchbraid trains residual networks whose layers are time steps of an ODE.
It splits the steps across MPI ranks and solves forward and backward
propagation with multigrid in time (MGRIT). This project models the parts
around the solver:

- **`BraidFunction`**, the autograd bridge. In the forward pass every rank
  solves with rank 0's input and returns the last rank's output. In the
  backward pass every rank hands its trailing per-layer gradient group to its
  right neighbour. Each rank then flattens its groups and zips them with
  autograd's `needs_input_grad` mask.
- **The test helpers of `tests/test_layer_parallel.py`.** These are the
  fine-time index of a coarse point (pinned down by the test's assertions),
  the block-average `coarsen` and injection `refine` pair, and the
  `StateInitialGuess` object with its rank-0 reduction of marks.
- **The drivers' configuration logic:**
  - the `parse_args` checks of `examples/tiny_imagenet/utils.py`;
  - the settings the `ParallelNet` constructor derives from its keyword
    arguments, and the `OpenLayer` shape;
  - the nested-iteration step schedule, networks, optimizers and MG/Opt call
    of `examples/mnist/main_mgopt.py`;
  - the iteration-cap policy of `examples/tiny_imagenet/main_lp.py`;
  - the validation and option defaults of `python/forward_scaling.py`.

MPI ranks are indices into sequences. Each collective (`bcast`, and the
send/recv gather of `reduceMark`) is a pure function over the per-rank
values (module `Collectives`). Rank-local solver calls (`fwd_app.run`,
`bwd_app.run`, `compute_levels`) are function parameters. Python exceptions
and `sys.exit(0)` become `Err` values of `Outcomes.Result`. An `IndexError`
from indexing a missing element becomes `None` of `Outcomes.Option`
(`ParallelNet.OpenLayerShape`, `NestedIteration.LevelSolvers`). An exception
that ends the epoch loop of `main_lp.py` is the `RunEnd` result of
`IterationBudget.RunEpochs`, and an `IndexError` that ends
`main_mgopt.py` before its solve is the `finestTuned` flag of
`NestedIteration.DriverSetup`. Python's
`int(a / b)` is `IntMath.TruncDiv`, which truncates toward zero.

Files:

| file | module |
|---|---|
| `outcomes.dfy` | `Outcomes` |
| `int_math.dfy` | `IntMath` |
| `collectives.dfy` | `Collectives` |
| `braid_function.dfy` | `BraidFunction` |
| `time_grid.dfy` | `TimeGrid` |
| `initial_guess.dfy` | `StateInitialGuess` |
| `parallel_net.dfy` | `ParallelNet` |
| `parse_args.dfy` | `ParseArgs` |
| `nested_iteration.dfy` | `NestedIteration` |
| `iteration_budget.dfy` | `IterationBudget` |
| `forward_scaling.dfy` | `ForwardScaling` |

Where the code and its comments disagree, the model follows the code:

- `ni_steps` is built coarse to fine, with entry `i` equal to
  `steps / rfactor^(levels-1-i)`. The comment above it at
  `examples/mnist/main_mgopt.py:129` says "fine to coarse". The per-rank
  list, the networks and the optimizers do run fine to coarse.
- A rejected configuration prints a message and calls `sys.exit(0)`, so
  the run exits with status 0; the model returns `Err`.

## Model

| member | source | states |
|---|---|---|
| Collectives.Bcast | torchbraid/braid_function.py:42 | every rank ends with the root's value and there are as many results as ranks |
| Collectives.GatherToRoot | tests/test_layer_parallel.py:60-72 | rank 0 receives every rank's value in rank order, its own first; every other rank gets the empty list |
| BraidFunction.BroadcastForwardResult | torchbraid/braid_function.py:95-109 | every rank returns the last rank's result; with one rank, the result is returned untouched |
| BraidFunction.Forward | torchbraid/braid_function.py:36-55 | every rank returns the last rank's forward solve, run on rank 0's input |
| BraidFunction.FirstEmptySender | torchbraid/braid_function.py:77-79 | returns nothing iff every sending rank (all but the last) holds a gradient group; otherwise returns the lowest rank that holds none |
| BraidFunction.ShiftGradients | torchbraid/braid_function.py:77-82 | fails iff some rank other than the last holds no gradient group, naming the lowest such rank; otherwise returns the shifted groups |
| BraidFunction.Shifted | torchbraid/braid_function.py:77-82 | rank 0 keeps its groups; every other rank holds its left neighbour's last group followed by exactly its own groups |
| BraidFunction.ShiftKeepsBoundary | torchbraid/braid_function.py:78-82 | after the hand-off, a rank's first group equals the last group its left neighbour still ends with |
| BraidFunction.Flatten | torchbraid/braid_function.py:85 | the flat list is as long as all groups together |
| BraidFunction.FlattenAppend | torchbraid/braid_function.py:85 | flattening a concatenation of group lists concatenates the flattenings |
| BraidFunction.FlattenIndex | torchbraid/braid_function.py:85 | entry `i` of group `j` sits in the flat list right after all entries of the groups before `j` |
| BraidFunction.MaskZip | torchbraid/braid_function.py:87-91 | stops at the shorter input; entry `i` is the gradient when the mask asks for it and `None` otherwise |
| BraidFunction.GradInput | torchbraid/braid_function.py:74-91 | the tuple starts `None, None, result`, followed by the masked flat gradients, which align with `needs_input_grad[3:]` |
| BraidFunction.Backward | torchbraid/braid_function.py:57-93 | succeeds iff every sending rank's backward solve left a gradient group; each rank's tuple carries its own solve's input gradient, computed from rank 0's seed |
| BraidFunction.BackwardParameterGradients | torchbraid/braid_function.py:57-93 | rank 0 zips its own flattened groups; every other rank zips its left neighbour's last group followed by its own flattened groups |
| TimeGrid.FineTimeIndex | tests/test_layer_parallel.py:369-373 | level 0 indices are already fine-grid indices |
| TimeGrid.FineTimeIndexUniform | tests/test_layer_parallel.py:459-469 | with one coarsening factor `c`, index `t` on level `L` maps to `t * c^L` |
| TimeGrid.FineTimeIndexPerLevel | tests/test_layer_parallel.py:352-379 | with per-level factors, index `t` on level `L` maps to `t` times the product of the first `L` factors |
| TimeGrid.FineTimeIndexTestValues | tests/test_layer_parallel.py:369-379 | the values the test asserts for the factors `{0: 4, 1: 3, 2: 2}` and for the uniform factor 2 |
| TimeGrid.EveryOther | tests/test_layer_parallel.py:289-290 | `x[start::2]` has `ceil((n - start) / 2)` entries, and entry `i` is `x[start + 2i]` |
| TimeGrid.HalfSum | tests/test_layer_parallel.py:289-290 | broadcasting succeeds iff the lengths match or one side has length 1; gives entrywise half sums, with a length-1 side repeated |
| TimeGrid.Coarsen | tests/test_layer_parallel.py:289-290 | even lengths give the averages of adjacent pairs; among odd lengths only 1 and 3 broadcast (3 reuses the middle entry), and longer odd lengths fail |
| TimeGrid.Refine | tests/test_layer_parallel.py:293-298 | twice the length, with entries `2i` and `2i + 1` both equal to `x[i]` |
| TimeGrid.CoarsenRefine | tests/test_layer_parallel.py:301-304 | coarsening an injected vector gives the vector back |
| TimeGrid.CoarsenRefineCoarsen | tests/test_layer_parallel.py:301-304 | the sanity check: coarsen, refine, coarsen equals the first coarsening |
| StateInitialGuess.NewGuess | tests/test_layer_parallel.py:51-54 | a new guess has marked nothing |
| StateInitialGuess.GetState | tests/test_layer_parallel.py:56-58 | a state of `x0`'s size filled with `time`; the marks gain exactly `time`, and nothing else changes |
| StateInitialGuess.GetStates | tests/test_layer_parallel.py:56-58 | a series of requests keeps every old mark and marks every requested time; rank and size do not change |
| StateInitialGuess.GetStateIdempotent | tests/test_layer_parallel.py:56-58 | asking again for the same time changes nothing |
| StateInitialGuess.GetStatesMarks | tests/test_layer_parallel.py:56-58 | after any series of requests, the marks are the old marks plus exactly the requested times |
| StateInitialGuess.ReduceMark | tests/test_layer_parallel.py:60-72 | rank 0 gets every rank's marks in rank order; other ranks get `[]` |
| StateInitialGuess.MergeMarks | tests/test_layer_parallel.py:509-512 | a time is in the union iff some rank's marks contain it |
| StateInitialGuess.ReducedMarksAreAllRequests | tests/test_layer_parallel.py:504-512 | rank 0's merged marks hold exactly the times some rank was asked for |
| ParallelNet.NetConfigFor | examples/tiny_imagenet/main_lp.py:284-308 | every keyword argument carries its own option: the per-rank steps, channels, `Tf`, both level caps, both iteration caps, both print levels, both coarsening factors, both fine-FCF flags, both relaxation counts, FMG, both relax-only-CG flags, `CWt` and final relaxation; `skip_downcycle` is the negation of `--lp-use-downcycle`; `diff_scale` and `activation` are the defaults unless forwarded |
| ParallelNet.FineRelaxCount | examples/tiny_imagenet/utils.py:139-146 | level 0 relaxes once iff fine FCF relaxation is on, and never otherwise |
| ParallelNet.SetNumRelax | examples/tiny_imagenet/utils.py:137-138 | every level relaxes `n` times |
| ParallelNet.SetNumRelaxLevel | examples/tiny_imagenet/utils.py:139-146 | only the given level changes |
| ParallelNet.InitialCaps | examples/tiny_imagenet/utils.py:117-119 | the forward cap is `max_fwd_iters` when positive and `max_iters` otherwise; the backward cap is `max_iters` |
| ParallelNet.ConfigureCycle | examples/tiny_imagenet/utils.py:123-135 | the cycle takes its coarsening factors, down-cycle flag, relax-only-CG flags and C-relaxation weight from the arguments, and the minimum coarse size is 2; final FC relaxation and FMG can only be switched on |
| ParallelNet.ConfigureRelax | examples/tiny_imagenet/utils.py:137-146 | level 0 relaxes once under fine FCF and never otherwise; every coarser level relaxes `nrelax` times |
| ParallelNet.ParallelNetSettings | examples/tiny_imagenet/utils.py:107-146 | the constructor's per-rank steps, `Tf`, level caps and print levels as given; its iteration caps, every cycle option and the per-level relaxation counts as `InitialCaps`, `ConfigureCycle` and `ConfigureRelax` state them |
| ParallelNet.RepeatShape | examples/tiny_imagenet/utils.py:49 | `repeat` multiplies every dimension by its count |
| ParallelNet.OpenLayerShape | examples/tiny_imagenet/utils.py:45-50 | defined iff the tensor has at least two dimensions; then it multiplies the channel dimension by `channels` and leaves the others unchanged |
| ParseArgs.ResolveLevels | examples/tiny_imagenet/utils.py:284-290 | a level count of -1 is computed from the steps with a minimum coarse size of 3; any other value is kept |
| ParseArgs.NestedChecksPass | examples/tiny_imagenet/utils.py:299-305 | the two nested-iteration checks pass; passing them implies that `procs` divides `steps` |
| ParseArgs.ParseArgs | examples/tiny_imagenet/utils.py:280-307 | accepts iff `procs` divides `steps` and, with MG/Opt on, `rfactor^(levels-1)` divides `steps` with a quotient divisible by `procs`; reports the first failing check, each error (with the values the message prints) exactly when its check is the first to fail, and a zero factor as a division by zero; an accepted result carries the resolved level counts |
| ParseArgs.ZeroRfactor | examples/tiny_imagenet/utils.py:299 | a zero refinement factor divides by zero iff there is more than one level |
| NestedIteration.LevelSteps | examples/mnist/main_mgopt.py:130 | a level never has more steps than `steps`, and the finest level has all of them |
| NestedIteration.LevelStepsIsFloor | examples/mnist/main_mgopt.py:130 | a level's count is the largest whose `rfactor^k`-fold still fits in `steps` |
| NestedIteration.RawNiSteps | examples/mnist/main_mgopt.py:130 | one count per level, never decreasing from coarse to fine, none above `steps`, and the last equal to `steps` |
| NestedIteration.RawNiStepsEntry | examples/mnist/main_mgopt.py:130 | entry `i` is `steps / rfactor^(levels-1-i)` rounded down |
| NestedIteration.DropZeros | examples/mnist/main_mgopt.py:131 | keeps exactly the non-zero entries, each as many times as it occurs |
| NestedIteration.DropZerosSorted | examples/mnist/main_mgopt.py:131 | filtering keeps the order |
| NestedIteration.DropZerosLast | examples/mnist/main_mgopt.py:131 | a non-zero last entry stays last |
| NestedIteration.DropZerosNoZeros | examples/mnist/main_mgopt.py:131 | a list without zeros passes unchanged |
| NestedIteration.NiSteps | examples/mnist/main_mgopt.py:130-131 | at most `levels` positive counts, non-decreasing, the finest equal to `steps`; as a multiset, exactly the raw counts without the zeros |
| NestedIteration.LocalNiSteps | examples/mnist/main_mgopt.py:132 | the schedule reversed, each entry divided by `procs` and truncated |
| NestedIteration.LocalNiStepsShape | examples/mnist/main_mgopt.py:130-132 | the per-rank counts never grow from fine to coarse, and the first is `steps / procs` |
| NestedIteration.Networks | examples/mnist/main_mgopt.py:137-161 | one network per level, in the same order, with that level's per-rank steps; the networks differ in nothing else |
| NestedIteration.Optimizers | examples/mnist/main_mgopt.py:165 | one SGD optimizer per level, with momentum 0.9 |
| NestedIteration.TuneFinestLevel | examples/mnist/main_mgopt.py:198-202 | level 0 of the finest solver only F-relaxes in both directions, with final FC relaxation and coarse-grid-only relaxation on; no other relaxation count, cycle option or setting changes |
| NestedIteration.LevelSolvers | examples/mnist/main_mgopt.py:137-202 | the finest level's fine-FCF flags are overridden while its coarse counts are kept; the other levels keep their flags; with no level, there is no finest solver to tune |
| NestedIteration.MgoptSolveCall | examples/mnist/main_mgopt.py:208-224 | the solve runs iff `mgopt_iter > 0`, without line search (step 1.0) and with tolerance 0 |
| NestedIteration.DriverSetup | examples/mnist/main_mgopt.py:130-224 | as many networks and optimizers as levels kept; no rank's share exceeds its level; nested iteration trains 2 epochs at print level 1; the schedule is empty iff `steps` or `levels` is zero, and then line 198 finds no finest level and the solve is never reached; otherwise the solve runs iff `mgopt_iter > 0` |
| NestedIteration.CheckedLevelSteps | examples/tiny_imagenet/utils.py:296-305 | when the nested-iteration checks pass, every level's count is a multiple of `procs`, positive iff `steps` is |
| NestedIteration.CheckedScheduleIsExact | examples/mnist/main_mgopt.py:130-132 | when `parse_args` accepts, each rank's share times `procs` is exactly its level's count; a positive step count keeps every level, and zero steps (which the checks accept) drop them all |
| NestedIteration.NoStepsNoLevels | examples/mnist/main_mgopt.py:130-131 | zero steps give an empty schedule |
| NestedIteration.DropZerosAllZeros | examples/mnist/main_mgopt.py:131 | a list of zeros filters to the empty list |
| NestedIteration.UncheckedScheduleStarvesRanks | examples/mnist/main_mgopt.py:130-132 | without the checks, 4 steps with factor 2 and 3 levels on 4 ranks give per-rank counts `[1, 0, 0]` |
| IntMath.TruncDiv | examples/tiny_imagenet/main_lp.py:231 | the floor quotient for non-negative numerators, minus the floor quotient of the magnitude for negative ones; an exact quotient for multiples, whatever the sign |
| IntMath.TruncDivTowardZero | examples/tiny_imagenet/main_lp.py:231 | for a negative numerator the quotient rounds toward zero: `q * b` is the least multiple of `b` not below `a` |
| IterationBudget.LocalSteps | examples/tiny_imagenet/main_lp.py:231 | a rank's share never overshoots the steps and is exact when `procs` divides them |
| IterationBudget.MainNetwork | examples/tiny_imagenet/main_lp.py:284-315 | the network gets the per-rank share of the steps and forwards `diff_scale` and `activation` |
| IterationBudget.AcceptedStepsSplitExactly | examples/tiny_imagenet/main_lp.py:227-231 | after `parse_args` accepts, the ranks' shares add up to exactly `steps` |
| IterationBudget.AfterBatch | examples/tiny_imagenet/main_lp.py:143-148 | each cap grows by one iff its residual exceeds its limit (10 forward, 1 backward), and otherwise stays |
| IterationBudget.TrainEpoch | examples/tiny_imagenet/main_lp.py:93-164 | batch `i` runs with the initial caps plus the number of earlier batches that overran each limit; the epoch ends with the initial caps |
| IterationBudget.OverrunsMonotone | examples/tiny_imagenet/main_lp.py:143-148 | caps never shrink within an epoch |
| IterationBudget.NoOverrunsNoGrowth | examples/tiny_imagenet/main_lp.py:143-148 | batches within both limits leave the caps unchanged |
| IterationBudget.Test | examples/tiny_imagenet/main_lp.py:187-211 | testing runs with 10 forward iterations and the backward cap untouched, and restores the caps afterwards |
| IterationBudget.RunEpochs | examples/tiny_imagenet/main_lp.py:93-336 | every epoch trains with the network's initial caps and tests with 10 forward iterations, and the caps never drift between epochs; the run ends at the first failing pass, each ending exactly when its condition is the first to hold: log interval 0 on the first batch (caps left raised), an epoch without batches, an empty test set (caps put back), and, after the loop, fewer than two epochs |
| ForwardScaling.Override | python/forward_scaling.py:104-111 | a non-zero option replaces the default; zero keeps it |
| ForwardScaling.OverrideReal | python/forward_scaling.py:112 | a non-zero final time replaces the default 2.0 |
| ForwardScaling.Configure | python/forward_scaling.py:86-122 | accepted iff `procs` divides `steps`, `--serial` runs on one rank, and `steps` is non-zero; reports the first failing check, each error exactly when its check is the first to fail; the per-rank share times `procs` is `steps`; `dt * steps == Tf` |
| ForwardScaling.ZeroItersKeepOne | python/forward_scaling.py:104-105 | `--iters 0` leaves one iteration |
| ForwardScaling.Build | python/forward_scaling.py:128-141 | serial mode builds one block per step (none for a negative count); parallel mode passes on the per-rank share, `Tf`, the level count, the iteration cap, the print level, the coarsening factor, the relaxation count and the channel count |
| ForwardScaling.SerialRunHasEveryStep | python/forward_scaling.py:93-130 | an accepted serial run is on one rank, where the share is all the steps, and stacks one block per step |
| ForwardScaling.NetworkCoversAllSteps | python/forward_scaling.py:100-141 | for a positive step count, the network covers exactly `steps` steps in either mode |

## Left out

- The MGRIT solves are not modelled. `fwd_app.run`, `bwd_app.run` and
  `getFineTimeIndex` live in code that is not part of this model. So do
  `LayerParallel`, `torchbraid.mgopt` (`compute_levels`, `mgopt_solver`,
  `root_print`) and `MeanInitialGuessStorage`. The solves are parameters,
  and `FineTimeIndex` is the definition the test assertions pin down.
- Tensors, autograd and floating point are not modelled. A tensor row is a
  `seq<real>` and a shape is a `seq<nat>`. `coarsen` and `refine` act on the
  last dimension only, and leading dimensions are not modelled. Floats are
  exact reals, so the `1e-15` tolerances, NaN residuals and the precision of
  `int(a / b)` on huge step counts are not modelled.
- MPI tags, timers, barriers and point-to-point ordering are not modelled.
  Collectives are pure functions over per-rank values.
- Losses, optimizer steps, data loading, printing and timing are not
  modelled. None of them feeds back into the modelled values, except the
  per-batch residuals, which are inputs.
- `StepLayer`, `CloseLayer` and the activation dispatch of
  `examples/tiny_imagenet/utils.py:89-96` are not modelled. That dispatch
  is not valid Python (`else activation==...`), so the module fails to
  load as written. The model treats the configuration functions as if it
  loaded.
- The test's count assertion at `tests/test_layer_parallel.py:513` is not
  modelled, because it depends on the solver.
- ParseArgs.ParseArgs: requires `ni_levels >= 1` when MG/Opt is on. A
  smaller level count makes the exponent negative, and `rfactor ** k`
  becomes a float.
- NestedIteration.RawNiSteps: takes `steps` as a `nat` and `rfactor >= 1`.
  Negative step counts, a zero factor with a single level, and a negative
  factor are accepted by `parse_args` but not modelled. A negative factor
  can give negative counts: 4 steps, factor -2 and 2 levels on one rank
  give `ni_steps == [-2, 4]`.
- NestedIteration.NiSteps: same restriction as `RawNiSteps`.
- NestedIteration.DriverSetup: same restriction as `RawNiSteps`.
- NestedIteration.TuneFinestLevel: does not model `setPrintLevel(2)` at
  `examples/mnist/main_mgopt.py:203`. The default target of that setter's
  second argument is not part of this model.
- ParallelNet.ParallelNetSettings: `LayerParallel`'s own defaults are a
  parameter. `max_iters=m` is taken to set both caps to `m`. The print
  levels are recorded as given, and the `compose`/`OpenLayer`/`CloseLayer`
  placement is not modelled.
- `examples/mnist/main_mgopt.py:102` imports `parse_args` and
  `mgopt_solver` from the `mgopt` module, which is not part of this model.
  The model assumes that module's `parse_args` and `ParallelNet` behave
  like those of `examples/tiny_imagenet/utils.py`. The `utils.py`
  `parse_args` is itself only called with `mgopt_on=False`
  (`examples/tiny_imagenet/main_lp.py:227`), so its MG/Opt checks are
  modelled as written but unused by that driver.
- BraidFunction.Shifted: `grads.insert(0, ...)` at
  `torchbraid/braid_function.py:82` mutates `ctx.bwd_app.grads` in place,
  because `grads` aliases it (line 77). The model returns the shifted groups
  as fresh values and does not model the solver object's changed state.
- ForwardScaling.Configure: accepts negative `--images`, `--channels` and
  `--pxwidth`. For those, `torch.randn(images, channels, image_size,
  image_size)` at `python/forward_scaling.py:125` raises before the network
  is built. The random input is not modelled.
- StateInitialGuess.MergeMarks: `mark.update(...)` at
  `tests/test_layer_parallel.py:510-511` mutates rank 0's own mark set in
  place, because `marks[0]` is the same object as its `self.mark`. The
  model returns the union as a fresh value and leaves the guess unchanged.
- ParallelNet.SetNumRelax: a global `setFwdNumRelax(n)` /
  `setBwdNumRelax(n)` is taken to give every level `n`, clearing earlier
  per-level counts. The setter belongs to `LayerParallel` and the solver
  library, which are not part of this model. If a global count only set the
  default and kept per-level counts, `ParallelNet.ConfigureRelax` would
  still give level 0 its fine-grid count, but its coarser levels would keep
  any per-level counts `LayerParallel`'s defaults carry.
- Option parsing (`argparse`) and its default values are not modelled. The
  inputs are the parsed values.

=== FILE: braid_function.dfy ===
/** `BraidFunction`, the autograd bridge between PyTorch and the time-parallel
    solver (torchbraid/braid_function.py), seen from all ranks at once.

    Every rank-local value is a sequence indexed by rank. The time-parallel
    solves themselves (`fwd_app.run`, `bwd_app.run`) are parameters: the model
    states what the bridge does around them, namely which input each rank
    solves with, which output each rank returns, and how the per-layer
    parameter gradients are handed to the right and laid out in the tuple
    returned to autograd. */
module BraidFunction {
  import opened Collectives
  import opened Outcomes

  /** What `bwd_app.run` leaves on one rank: the gradient for the input `x`,
      and `bwd_app.grads`, one group of parameter gradients per layer the rank
      holds, in layer order. */
  datatype BackwardRun<T> = BackwardRun(result: T, grads: seq<seq<T>>)

  /** The backward pass fails when a rank that has to send its trailing
      gradient group holds none (`grads[-1]` on an empty list raises
      `IndexError`); the error names the lowest such rank. */
  datatype BackwardError = EmptyGradients(rank: nat)

  function Min(a: int, b: int): int
  {
    if a <= b then a else b
  }

  function Last<T>(s: seq<T>): T
    requires |s| > 0
  {
    s[|s| - 1]
  }

  /** Python's slice `s[n:]`: empty when `s` is too short. */
  function Drop<T>(s: seq<T>, n: nat): (r: seq<T>)
    ensures |r| == if |s| <= n then 0 else |s| - n
    ensures forall i :: 0 <= i < |r| ==> r[i] == s[n + i]
  {
    if |s| <= n then [] else s[n..]
  }

  // ---------------------------------------------------------------- forward

  /** `broadcastForwardResult`: the serial case returns its argument untouched,
      otherwise the last rank's result is broadcast, so every rank returns the
      output of the last time interval. */
  function BroadcastForwardResult<T>(results: seq<T>): (r: seq<T>)
    requires |results| >= 1
    ensures |r| == |results|
    ensures |results| == 1 ==> r == results
    ensures forall i :: 0 <= i < |r| ==> r[i] == results[|results| - 1]
  {
    if |results| == 1 then results else Bcast(results, |results| - 1)
  }

  /** `BraidFunction.forward` on every rank: `x` is broadcast from rank 0, each
      rank runs the forward solve (`run(rank, x)`) and the result is taken from
      the last rank. */
  function Forward<T>(xs: seq<T>, run: (nat, T) -> T): (r: seq<T>)
    requires |xs| >= 1
    ensures |r| == |xs|
    ensures forall i :: 0 <= i < |r| ==> r[i] == run(|xs| - 1, xs[0])
  {
    var inputs := Bcast(xs, 0);
    var results := seq(|xs|, k requires 0 <= k < |xs| => run(k, inputs[k]));
    BroadcastForwardResult(results)
  }

  // -------------------------------------------------- gradient hand-off

  /** The lowest rank at or after `from` that must send (every rank but the
      last) and holds no gradient group. */
  function FirstEmptySender<G>(grads: seq<seq<G>>, from: nat): (r: Option<nat>)
    decreases |grads| - from
    ensures r.None? <==> forall k :: from <= k < |grads| - 1 ==> grads[k] != []
    ensures r.Some? ==> from <= r.value < |grads| - 1 && grads[r.value] == []
    ensures r.Some? ==> forall k :: from <= k < r.value ==> grads[k] != []
  {
    if from + 1 >= |grads| then None
    else if grads[from] == [] then Some(from)
    else FirstEmptySender(grads, from + 1)
  }

  /** Lines 77-82 on every rank: each rank but the last sends its trailing
      group to its right neighbour, and each rank but the first prepends the
      group it receives from its left neighbour. The send happens before the
      receive, so what is sent is the last group of the rank's own list. */
  function ShiftGradients<G>(grads: seq<seq<G>>): (r: Result<seq<seq<G>>, BackwardError>)
    ensures r.Err? <==> exists k :: 0 <= k < |grads| - 1 && grads[k] == []
    ensures r.Err? ==> r.error.rank < |grads| - 1 && grads[r.error.rank] == []
    ensures r.Err? ==> forall k :: 0 <= k < r.error.rank ==> grads[k] != []
    ensures r.Ok? ==> r.value == Shifted(grads)
  {
    match FirstEmptySender(grads, 0)
    case Some(k) => Err(EmptyGradients(k))
    case None => Ok(Shifted(grads))
  }

  /** What every rank holds once the hand-off succeeded. */
  function Shifted<G>(grads: seq<seq<G>>): (r: seq<seq<G>>)
    requires forall k :: 0 <= k < |grads| - 1 ==> grads[k] != []
    ensures |r| == |grads|
    ensures |grads| > 0 ==> r[0] == grads[0]
    ensures forall k :: 1 <= k < |grads| ==> |r[k]| == |grads[k]| + 1
    ensures forall k :: 1 <= k < |grads| ==> r[k][0] == Last(grads[k - 1]) && r[k][1..] == grads[k]
  {
    seq(|grads|, k requires 0 <= k < |grads| =>
      if k == 0 then grads[0] else [Last(grads[k - 1])] + grads[k])
  }

  /** The sending rank keeps its own trailing group, and the group each rank
      receives is the one its left neighbour still ends with: after the
      hand-off the two neighbours share the boundary layer's gradients. */
  lemma ShiftKeepsBoundary<G>(grads: seq<seq<G>>, k: nat)
    requires ShiftGradients(grads).Ok?
    requires 1 <= k < |grads|
    ensures grads[k - 1] != []
    ensures Last(Shifted(grads)[k - 1]) == Last(grads[k - 1])
    ensures Shifted(grads)[k][0] == Last(Shifted(grads)[k - 1])
  {
    var s := Shifted(grads);
    if k - 1 > 0 {
      assert s[k - 1][1..] == grads[k - 1];
      assert Last(s[k - 1]) == s[k - 1][1..][|grads[k - 1]| - 1];
    }
  }

  // ------------------------------------------------ flatten and mask-zip

  /** Total number of entries over all groups. */
  function TotalLength<T>(groups: seq<seq<T>>): nat
  {
    if groups == [] then 0 else |groups[0]| + TotalLength(groups[1..])
  }

  /** Line 85: `[g for sublist in grads for g in sublist]`. */
  function Flatten<T>(groups: seq<seq<T>>): (r: seq<T>)
    ensures |r| == TotalLength(groups)
  {
    if groups == [] then [] else groups[0] + Flatten(groups[1..])
  }

  /** Flattening distributes over concatenation of group lists. */
  lemma {:induction false} FlattenAppend<T>(a: seq<seq<T>>, b: seq<seq<T>>)
    ensures Flatten(a + b) == Flatten(a) + Flatten(b)
  {
    if a == [] {
      assert a + b == b;
    } else {
      assert (a + b)[0] == a[0];
      assert (a + b)[1..] == a[1..] + b;
      FlattenAppend(a[1..], b);
    }
  }

  /** Flattening preserves order: entry `i` of group `j` sits right after every
      entry of the groups before it. */
  lemma FlattenIndex<T>(groups: seq<seq<T>>, j: nat, i: nat)
    requires j < |groups| && i < |groups[j]|
    ensures TotalLength(groups[..j]) + i < |Flatten(groups)|
    ensures Flatten(groups)[TotalLength(groups[..j]) + i] == groups[j][i]
  {
    assert groups == groups[..j] + groups[j..];
    FlattenAppend(groups[..j], groups[j..]);
    assert groups[j..][1..] == groups[j + 1..];
    assert Flatten(groups[j..]) == groups[j] + Flatten(groups[j + 1..]);
  }

  /** Lines 87-91: `zip` of the mask with the flat gradients, stopping at the
      shorter of the two; a masked-out entry becomes `None`. */
  function MaskZip<T>(mask: seq<bool>, xs: seq<T>): (r: seq<Option<T>>)
    ensures |r| == Min(|mask|, |xs|)
    ensures forall i :: 0 <= i < |r| ==> r[i] == (if mask[i] then Some(xs[i]) else None)
  {
    if mask == [] || xs == [] then []
    else [if mask[0] then Some(xs[0]) else None] + MaskZip(mask[1..], xs[1..])
  }

  /** Lines 74-91 on one rank: the tuple returned to autograd follows the
      arguments of `forward` (`fwd_app`, `bwd_app`, `x`, `*params`). */
  function GradInput<T>(needsInputGrad: seq<bool>, result: T, groups: seq<seq<T>>): (r: seq<Option<T>>)
    ensures |r| == 3 + Min(|Drop(needsInputGrad, 3)|, TotalLength(groups))
    ensures r[0] == None && r[1] == None && r[2] == Some(result)
    ensures forall i :: 0 <= i < |r| - 3 ==>
      r[3 + i] == (if needsInputGrad[3 + i] then Some(Flatten(groups)[i]) else None)
  {
    [None, None, Some(result)] + MaskZip(Drop(needsInputGrad, 3), Flatten(groups))
  }

  // ---------------------------------------------------------------- backward

  /** Each rank's `bwd_app.grads` after the backward solve. */
  function GradsOf<T>(runs: seq<BackwardRun<T>>): (r: seq<seq<seq<T>>>)
    ensures |r| == |runs|
    ensures forall k :: 0 <= k < |r| ==> r[k] == runs[k].grads
  {
    seq(|runs|, k requires 0 <= k < |runs| => runs[k].grads)
  }

  /** `BraidFunction.backward` on every rank: the seed `grad_output` is
      broadcast from rank 0, each rank runs the backward solve
      (`run(rank, seed)`), the gradient groups are shifted one rank to the
      right, flattened and zipped against the rank's `needs_input_grad`. */
  function Backward<T>(gradOutputs: seq<T>, needsInputGrad: seq<seq<bool>>, run: (nat, T) -> BackwardRun<T>)
    : (r: Result<seq<seq<Option<T>>>, BackwardError>)
    requires |gradOutputs| >= 1 && |needsInputGrad| == |gradOutputs|
    ensures r.Ok? <==> forall k :: 0 <= k < |gradOutputs| - 1 ==> run(k, gradOutputs[0]).grads != []
    ensures r.Ok? ==> |r.value| == |gradOutputs|
    ensures r.Ok? ==> forall k :: 0 <= k < |r.value| ==>
      |r.value[k]| >= 3 && r.value[k][0] == None && r.value[k][1] == None
      && r.value[k][2] == Some(run(k, gradOutputs[0]).result)
  {
    var seeds := Bcast(gradOutputs, 0);
    var runs := seq(|seeds|, k requires 0 <= k < |seeds| => run(k, seeds[k]));
    assert forall k :: 0 <= k < |runs| ==> GradsOf(runs)[k] == run(k, gradOutputs[0]).grads;
    match ShiftGradients(GradsOf(runs))
    case Err(e) => Err(e)
    case Ok(shifted) =>
      Ok(seq(|runs|, k requires 0 <= k < |runs| => GradInput(needsInputGrad[k], runs[k].result, shifted[k])))
  }

  /** The parameter part of every rank's tuple: rank 0 zips its own flattened
      groups; every other rank zips its left neighbour's trailing group followed
      by its own flattened groups. All ranks solve with rank 0's seed. */
  lemma BackwardParameterGradients<T>(gradOutputs: seq<T>, needsInputGrad: seq<seq<bool>>,
                                      run: (nat, T) -> BackwardRun<T>, k: nat)
    requires |gradOutputs| >= 1 && |needsInputGrad| == |gradOutputs|
    requires Backward(gradOutputs, needsInputGrad, run).Ok?
    requires k < |gradOutputs|
    ensures var own := run(k, gradOutputs[0]).grads;
      Backward(gradOutputs, needsInputGrad, run).value[k][3..]
      == MaskZip(Drop(needsInputGrad[k], 3),
                 if k == 0 then Flatten(own) else Last(run(k - 1, gradOutputs[0]).grads) + Flatten(own))
  {
    var seeds := Bcast(gradOutputs, 0);
    var runs := seq(|seeds|, k requires 0 <= k < |seeds| => run(k, seeds[k]));
    var shifted := Shifted(GradsOf(runs));
    var own := run(k, gradOutputs[0]).grads;
    if k > 0 {
      assert shifted[k] == [shifted[k][0]] + shifted[k][1..];
      assert Flatten(shifted[k]) == shifted[k][0] + Flatten(shifted[k][1..]);
    }
  }
}

=== FILE: collectives.dfy ===
/** MPI collectives over a communicator of `|vals|` ranks. A value that every
    rank holds is a sequence indexed by rank; a collective is a pure function
    from what each rank holds before the call to what each rank holds after. */
module Collectives {

  /** `comm.bcast(v, root=root)`: every rank leaves with the root's value. */
  function Bcast<T>(vals: seq<T>, root: nat): (r: seq<T>)
    requires root < |vals|
    ensures |r| == |vals|
    ensures forall i :: 0 <= i < |r| ==> r[i] == vals[root]
  {
    seq(|vals|, _ => vals[root])
  }

  /** A gather by point-to-point messages to rank 0: rank 0 collects every
      rank's value in rank order, its own first; every other rank sends and
      is left with an empty list. */
  function GatherToRoot<T>(vals: seq<T>): (r: seq<seq<T>>)
    requires |vals| >= 1
    ensures |r| == |vals|
    ensures r[0] == vals
    ensures forall i :: 1 <= i < |r| ==> r[i] == []
  {
    [vals] + seq(|vals| - 1, _ => [])
  }
}

=== FILE: forward_scaling.dfy ===
/** The set-up of the forward scaling benchmark python/forward_scaling.py:
    validation of the command line against the communicator size, the
    defaults an option replaces only when it is given a non-zero value, and
    the network the run builds (a plain stack of blocks in serial, or a
    layer-parallel model with `steps / procs` steps per rank).

    Argument parsing, the random input, the timing and the solve itself are
    not modelled. A rejected configuration ends the run with `sys.exit(0)`;
    here it is an `Err`. */
module ForwardScaling {
  import opened Outcomes
  import opened IntMath

  /** Lines 55-66: the defaults. */
  const DefaultMaxLevels: int := 3
  const DefaultMaxIters: int := 1
  const DefaultChannels: int := 16
  const DefaultImages: int := 10
  const DefaultImageSize: int := 256
  const DefaultTf: real := 2.0
  const DefaultPrintLevel: int := 0
  const DefaultNrelax: int := 1
  const DefaultCfactor: int := 2

  /** The parsed command line (lines 72-83). */
  datatype Options = Options(
    steps: int, levels: int, iters: int, channels: int, images: int,
    pxwidth: int, verbosity: int, cfactor: int, nrelax: int, tf: real,
    serial: bool)

  datatype ScalingError =
    | StepsNotMultipleOfProcs(procs: nat)
    | SerialNeedsOneProc(procs: nat)
    | ZeroSteps  // `Tf / num_steps` divides by zero

  /** The values the run goes on with. */
  datatype Settings = Settings(
    numSteps: int, localNumSteps: int,
    maxLevels: int, maxIters: int, channels: int, images: int,
    imageSize: int, printLevel: int, cfactor: int, nrelax: int,
    tf: real, runSerial: bool, dt: real)

  /** `if args.x: x = args.x`: a zero option keeps the default. */
  function Override(given: int, default: int): (r: int)
    ensures given != 0 ==> r == given
    ensures given == 0 ==> r == default
  {
    if given != 0 then given else default
  }

  /** The same rule for the final time. */
  function OverrideReal(given: real, default: real): (r: real)
    ensures given != 0.0 ==> r == given
    ensures given == 0.0 ==> r == default
  {
    if given != 0.0 then given else default
  }

  /** Lines 86-122 on a communicator of `procs` ranks. */
  function Configure(o: Options, procs: nat): (r: Result<Settings, ScalingError>)
    requires procs >= 1
    ensures r.Ok? <==> o.steps % procs == 0 && (o.serial ==> procs == 1) && o.steps != 0
    ensures o.steps % procs != 0 ==> r == Err(StepsNotMultipleOfProcs(procs))
    ensures o.steps % procs == 0 && o.serial && procs != 1 ==> r == Err(SerialNeedsOneProc(procs))
    ensures o.steps % procs == 0 && !(o.serial && procs != 1) && o.steps == 0 ==> r == Err(ZeroSteps)
    ensures r.Ok? ==> r.value.numSteps == o.steps && r.value.localNumSteps * procs == o.steps
    ensures r.Ok? ==> r.value.dt * (r.value.numSteps as real) == r.value.tf
    ensures r.Ok? ==> r.value.runSerial == o.serial
    ensures r.Ok? ==> (r.value.maxLevels == Override(o.levels, DefaultMaxLevels)
      && r.value.maxIters == Override(o.iters, DefaultMaxIters)
      && r.value.channels == Override(o.channels, DefaultChannels)
      && r.value.images == Override(o.images, DefaultImages)
      && r.value.imageSize == Override(o.pxwidth, DefaultImageSize)
      && r.value.printLevel == Override(o.verbosity, DefaultPrintLevel)
      && r.value.cfactor == Override(o.cfactor, DefaultCfactor)
      && r.value.nrelax == Override(o.nrelax, DefaultNrelax)
      && r.value.tf == OverrideReal(o.tf, DefaultTf))
  {
    if o.steps % procs != 0 then Err(StepsNotMultipleOfProcs(procs))
    else if o.serial && procs != 1 then Err(SerialNeedsOneProc(procs))
    else if o.steps == 0 then Err(ZeroSteps)
    else
      var tf := OverrideReal(o.tf, DefaultTf);
      Ok(Settings(
        numSteps := o.steps,
        localNumSteps := TruncDiv(o.steps, procs),
        maxLevels := Override(o.levels, DefaultMaxLevels),
        maxIters := Override(o.iters, DefaultMaxIters),
        channels := Override(o.channels, DefaultChannels),
        images := Override(o.images, DefaultImages),
        imageSize := Override(o.pxwidth, DefaultImageSize),
        printLevel := Override(o.verbosity, DefaultPrintLevel),
        cfactor := Override(o.cfactor, DefaultCfactor),
        nrelax := Override(o.nrelax, DefaultNrelax),
        tf := tf,
        runSerial := o.serial,
        dt := tf / (o.steps as real)))
  }

  /** `--iters 0` cannot switch the iterations off: the run keeps one. */
  lemma ZeroItersKeepOne(o: Options, procs: nat)
    requires procs >= 1 && o.iters == 0
    requires Configure(o, procs).Ok?
    ensures Configure(o, procs).value.maxIters == 1
  {
  }

  /** `BasicBlock(channels)`. */
  datatype Block = BasicBlock(channels: int)

  /** What the run builds: the serial stack of blocks, or the layer-parallel
      model with its settings in the order lines 138-141 apply them. */
  datatype Network =
    | Serial(blocks: seq<Block>)
    | Parallel(localSteps: int, tf: real, maxLevels: int, maxIters: int,
               printLevel: int, cfactor: int, nrelax: int, channels: int)

  /** Lines 128-141. `range(num_steps)` is empty for a negative count. */
  function Build(s: Settings): (n: Network)
    ensures s.runSerial <==> n.Serial?
    ensures n.Serial? ==> |n.blocks| == (if s.numSteps >= 0 then s.numSteps else 0)
    ensures n.Serial? ==> forall i :: 0 <= i < |n.blocks| ==> n.blocks[i] == BasicBlock(s.channels)
    ensures n.Parallel? ==> n.localSteps == s.localNumSteps && n.maxIters == s.maxIters && n.nrelax == s.nrelax
    ensures n.Parallel? ==> (n.tf == s.tf && n.maxLevels == s.maxLevels && n.printLevel == s.printLevel
      && n.cfactor == s.cfactor && n.channels == s.channels)
  {
    if s.runSerial then
      var count := if s.numSteps >= 0 then s.numSteps else 0;
      Serial(seq(count, _ => BasicBlock(s.channels)))
    else
      Parallel(s.localNumSteps, s.tf, s.maxLevels, s.maxIters, s.printLevel, s.cfactor, s.nrelax, s.channels)
  }

  /** A validated serial run is on one rank, where the per-rank share is the
      whole step count, and stacks one block per step (none for a negative
      count). */
  lemma SerialRunHasEveryStep(o: Options, procs: nat)
    requires procs >= 1 && o.serial
    requires Configure(o, procs).Ok?
    ensures procs == 1
    ensures var s := Configure(o, procs).value;
      s.localNumSteps == o.steps && |Build(s).blocks| == (if o.steps > 0 then o.steps else 0)
  {
    var s := Configure(o, procs).value;
    assert s.localNumSteps * 1 == o.steps;
  }

  /** Across the two modes the network covers all `steps` steps: the serial
      stack has one block per step, and the parallel model's per-rank share
      times the ranks is the step count. */
  lemma NetworkCoversAllSteps(o: Options, procs: nat)
    requires procs >= 1 && o.steps > 0
    requires Configure(o, procs).Ok?
    ensures var n := Build(Configure(o, procs).value);
      (n.Serial? ==> |n.blocks| == o.steps) && (n.Parallel? ==> n.localSteps * procs == o.steps)
  {
  }
}

=== FILE: initial_guess.dfy ===
/** The `StateInitialGuess` helper of tests/test_layer_parallel.py: an initial
    guess for the forward solve that fills a state with its time value and
    records (marks) every time it was asked for, and the reduction that
    collects every rank's marks on rank 0. Tensors are flat `seq<real>`;
    only the number of entries of `x0` matters. */
module StateInitialGuess {
  import opened Collectives

  /** One rank's guess object: its rank, the number of entries of `x0`, and
      the set of times requested so far. */
  datatype Guess = Guess(rank: nat, size: nat, mark: set<real>)

  /** `StateInitialGuess(rank, x0)`: nothing is marked yet. */
  function NewGuess(rank: nat, size: nat): (g: Guess)
    ensures g.mark == {} && g.rank == rank && g.size == size
  {
    Guess(rank, size, {})
  }

  /** The state handed to the solver and the guess object after the call. */
  datatype StateAndGuess = StateAndGuess(state: seq<real>, guess: Guess)

  /** `getState(time)`: a state of `x0`'s shape filled with `time`; `time`
      joins the marks and nothing else about the guess changes. */
  function GetState(g: Guess, time: real): (r: StateAndGuess)
    ensures |r.state| == g.size
    ensures forall i :: 0 <= i < |r.state| ==> r.state[i] == time
    ensures time in r.guess.mark && g.mark <= r.guess.mark
    ensures forall t :: t in r.guess.mark ==> t in g.mark || t == time
    ensures r.guess.rank == g.rank && r.guess.size == g.size
  {
    StateAndGuess(seq(g.size, _ => time), g.(mark := g.mark + {time}))
  }

  /** Asking twice for the same time marks nothing new. */
  lemma GetStateIdempotent(g: Guess, time: real)
    ensures GetState(GetState(g, time).guess, time) == GetState(g, time)
  {
    var g1 := GetState(g, time).guess;
    assert g1.mark + {time} == g1.mark;
  }

  /** The guess object after the solver requested `times`, in that order. */
  function GetStates(g: Guess, times: seq<real>): (r: Guess)
    decreases |times|
    ensures g.mark <= r.mark
    ensures forall i :: 0 <= i < |times| ==> times[i] in r.mark
    ensures r.rank == g.rank && r.size == g.size
  {
    if times == [] then g else GetStates(GetState(g, times[0]).guess, times[1..])
  }

  /** After a series of requests the marks are the original marks plus
      exactly the requested times, whatever their order or repetition. */
  lemma {:induction false} GetStatesMarks(g: Guess, times: seq<real>)
    ensures GetStates(g, times).mark == g.mark + set i | 0 <= i < |times| :: times[i]
    ensures GetStates(g, times).rank == g.rank && GetStates(g, times).size == g.size
    decreases |times|
  {
    if times != [] {
      var g1 := GetState(g, times[0]).guess;
      GetStatesMarks(g1, times[1..]);
      var rest := set i | 0 <= i < |times[1..]| :: times[1..][i];
      var all := set i | 0 <= i < |times| :: times[i];
      assert all == {times[0]} + rest by {
        forall t | t in all ensures t in {times[0]} + rest {
          var i :| 0 <= i < |times| && times[i] == t;
          if i > 0 {
            assert times[1..][i - 1] == t;
          }
        }
      }
    }
  }

  /** `reduceMark(comm)`: rank 0 returns every rank's marks in rank order,
      its own first; every other rank returns `[]`. */
  function ReduceMark(guesses: seq<Guess>): (r: seq<seq<set<real>>>)
    requires |guesses| >= 1
    ensures |r| == |guesses|
    ensures |r[0]| == |guesses|
    ensures forall k :: 0 <= k < |guesses| ==> r[0][k] == guesses[k].mark
    ensures forall k :: 1 <= k < |r| ==> r[k] == []
  {
    GatherToRoot(seq(|guesses|, k requires 0 <= k < |guesses| => guesses[k].mark))
  }

  /** Lines 510-512 on rank 0: the union of the gathered marks. */
  function MergeMarks(marks: seq<set<real>>): (r: set<real>)
    ensures forall t :: t in r <==> exists k :: 0 <= k < |marks| && t in marks[k]
  {
    if marks == [] then {} else marks[0] + MergeMarks(marks[1..])
  }

  /** Rank 0's merged marks hold exactly the times some rank's guess was
      asked for. */
  lemma ReducedMarksAreAllRequests(guesses: seq<Guess>, t: real)
    requires |guesses| >= 1
    ensures t in MergeMarks(ReduceMark(guesses)[0]) <==> exists k :: 0 <= k < |guesses| && t in guesses[k].mark
  {
    var gathered := ReduceMark(guesses)[0];
    if exists k :: 0 <= k < |guesses| && t in guesses[k].mark {
      var k :| 0 <= k < |guesses| && t in guesses[k].mark;
      assert t in gathered[k];
    }
  }
}

=== FILE: int_math.dfy ===
/** Integer helpers shared by the configuration and schedule modules:
    Python's `**` with a non-negative exponent, Python's `int(a / b)`
    for a positive divisor, and the divisibility facts the schedule
    proofs rest on. */
module IntMath {

  /** `b ** e` for a non-negative exponent. */
  function Pow(b: int, e: nat): int
  {
    if e == 0 then 1 else b * Pow(b, e - 1)
  }

  lemma {:induction false} PowPositive(b: int, e: nat)
    requires b >= 1
    ensures Pow(b, e) >= 1
  {
    if e > 0 {
      PowPositive(b, e - 1);
      MulAtLeastOne(b, Pow(b, e - 1));
    }
  }

  lemma MulAtLeastOne(x: int, y: int)
    requires x >= 1 && y >= 1
    ensures x * y >= y && x * y >= x
  {
  }

  /** Exponents add under multiplication. */
  lemma {:induction false} PowAdd(b: int, e1: nat, e2: nat)
    ensures Pow(b, e1 + e2) == Pow(b, e1) * Pow(b, e2)
  {
    if e1 > 0 {
      PowAdd(b, e1 - 1, e2);
      assert Pow(b, e1 + e2) == b * Pow(b, e1 - 1 + e2);
      MulAssoc(b, Pow(b, e1 - 1), Pow(b, e2));
    }
  }

  lemma MulAssoc(x: int, y: int, z: int)
    ensures x * (y * z) == (x * y) * z
  {
  }

  /** A larger exponent of a base of at least one never gives a smaller power. */
  lemma {:induction false} PowMonotone(b: int, e1: nat, e2: nat)
    requires b >= 1
    requires e1 <= e2
    ensures Pow(b, e1) <= Pow(b, e2)
  {
    PowAdd(b, e1, e2 - e1);
    PowPositive(b, e1);
    PowPositive(b, e2 - e1);
    MulAtLeastOne(Pow(b, e2 - e1), Pow(b, e1));
  }

  /** If `q * d` does not exceed `a`, then `q` does not exceed the floor quotient. */
  lemma DivLowerBound(a: int, d: int, q: int)
    requires d > 0
    requires q * d <= a
    ensures q <= a / d
  {
    if q > a / d {
      MulSuccMonotone(a / d, q, d);
      assert false;
    }
  }

  lemma MulSuccMonotone(x: int, y: int, d: int)
    requires x < y && d >= 0
    ensures x * d + d <= y * d
  {
    MulMonotone(x + 1, y, d);
  }

  lemma MulMonotone(x: int, y: int, d: int)
    requires x <= y && d >= 0
    ensures x * d <= y * d
  {
  }

  /** Floor division never overshoots. */
  lemma DivFloor(a: nat, d: nat)
    requires d >= 1
    ensures (a / d) * d <= a
  {
  }

  /** A larger numerator never gives a smaller quotient. */
  lemma DivMonotoneNumerator(a: nat, b: nat, d: nat)
    requires a <= b && d >= 1
    ensures a / d <= b / d
  {
    MulMonotone(a / d, a / d, d);
    DivLowerBound(b, d, a / d);
  }

  /** An exact quotient multiplies back to the numerator. */
  lemma ExactQuotient(x: nat, d: nat)
    requires d >= 1 && x % d == 0
    ensures (x / d) * d == x
  {
  }

  /** Dividing a non-negative number by a larger divisor never gives a larger quotient. */
  lemma DivMonotoneDivisor(a: int, d1: int, d2: int)
    requires a >= 0
    requires 1 <= d1 <= d2
    ensures a / d2 <= a / d1
  {
    var q := a / d2;
    assert q >= 0;
    MulMonotone(d1, d2, q);
    assert q * d2 <= a;
    assert q * d1 <= q * d2;
    DivLowerBound(a, d1, q);
  }

  /** Multiplying by `d` and then dividing by `d` gives back the factor. */
  lemma MulDivCancel(m: int, d: int)
    requires d > 0
    ensures (m * d) / d == m
    ensures (m * d) % d == 0
  {
    var q, r := (m * d) / d, (m * d) % d;
    assert m * d == q * d + r;
    assert 0 <= r < d;
    assert (m - q) * d == r;
    if m - q >= 1 {
      MulMonotone(1, m - q, d);
    } else if m - q <= -1 {
      MulMonotone(m - q, -1, d);
    }
  }

  /** Python's `int(a / b)` for a positive divisor: true division truncated toward zero. */
  function TruncDiv(a: int, b: int): (q: int)
    requires b > 0
    ensures a >= 0 ==> q == a / b
    ensures a < 0 ==> q == -((-a) / b)
    ensures a % b == 0 ==> q * b == a
  {
    if a >= 0 then a / b else NegExactDiv(a, b); -((-a) / b)
  }

  /** For a negative numerator the quotient rounds up, toward zero: `q * b`
      is the smallest multiple of `b` that is not below `a`. */
  lemma TruncDivTowardZero(a: int, b: int)
    requires b > 0 && a < 0
    ensures var q := TruncDiv(a, b); q <= 0 && a <= q * b < a + b
  {
    var p := (-a) / b;
    assert -a == p * b + (-a) % b;
    assert -p * b == -(p * b);
  }

  lemma NegExactDiv(a: int, b: int)
    requires b > 0
    ensures a % b == 0 ==> -((-a) / b) * b == a
  {
    if a % b == 0 {
      var k := a / b;
      assert a == k * b;
      assert -a == (-k) * b;
      MulDivCancel(-k, b);
    }
  }
}

=== FILE: iteration_budget.dfy ===
/** The iteration caps of the layer-parallel solver over a run of
    examples/tiny_imagenet/main_lp.py: each rank's share of the steps, the
    caps that grow during a training epoch whenever a solve ends with a
    large residual, the forward cap raised for testing, and the caps put
    back after both.

    Losses, data and timing are not modelled; a training batch is reduced to
    the two residuals the solver reports for it. */
module IterationBudget {
  import opened IntMath
  import opened ParallelNet
  import ParseArgs

  /** A forward residual above this after a batch raises the forward cap. */
  const FwdResidualLimit: real := 10.0
  /** A backward residual above this after a batch raises the backward cap. */
  const BwdResidualLimit: real := 1.0
  /** The forward cap used while testing. */
  const TestFwdIters: int := 10

  /** Line 231: `int(args.steps / procs)`, truncated toward zero. */
  function LocalSteps(steps: int, procs: nat): (r: int)
    requires procs >= 1
    ensures steps >= 0 ==> r >= 0 && r * procs <= steps
    ensures steps % procs == 0 ==> r * procs == steps
  {
    if steps >= 0 then
      DivFloor(steps, procs);
      steps / procs
    else
      TruncDiv(steps, procs)
  }

  /** Lines 284-315: the network main_lp.py builds; it also forwards the
      `diff_scale` and `activation` options. */
  function MainNetwork(a: ParseArgs.CliArgs, procs: nat): (c: NetConfig)
    requires procs >= 1
    ensures c.localSteps == LocalSteps(a.steps, procs)
    ensures c.diffScale == a.lp.diffScale && c.activation == a.lp.activation
  {
    NetConfigFor(a.lp, LocalSteps(a.steps, procs), true)
  }

  /** A configuration `parse_args` accepts splits the steps exactly: every
      rank owns `steps / procs` of them and together they own all of them. */
  lemma AcceptedStepsSplitExactly(a: ParseArgs.CliArgs, procs: nat, computeLevels: (int, int, int) -> int)
    requires procs >= 1
    requires ParseArgs.ParseArgs(a, procs, false, computeLevels).Ok?
    ensures var c := MainNetwork(ParseArgs.ParseArgs(a, procs, false, computeLevels).value, procs);
      c.localSteps * procs == a.steps
  {
  }

  // ------------------------------------------------ training epoch

  /** The residuals the solver reports after one batch. */
  datatype BatchStats = BatchStats(fwdRes: real, bwdRes: real)

  /** Lines 143-148: the cap of a direction grows by one exactly when that
      direction's residual exceeds its limit. */
  function AfterBatch(caps: IterCaps, s: BatchStats): (r: IterCaps)
    ensures r.fwd == caps.fwd || r.fwd == caps.fwd + 1
    ensures r.fwd == caps.fwd + 1 <==> s.fwdRes > FwdResidualLimit
    ensures r.bwd == caps.bwd || r.bwd == caps.bwd + 1
    ensures r.bwd == caps.bwd + 1 <==> s.bwdRes > BwdResidualLimit
  {
    var afterFwd := if s.fwdRes > FwdResidualLimit then caps.(fwd := caps.fwd + 1) else caps;
    if s.bwdRes > BwdResidualLimit then afterFwd.(bwd := afterFwd.bwd + 1) else afterFwd
  }

  /** The number of batches whose forward residual exceeded its limit. */
  function FwdOverruns(stats: seq<BatchStats>): nat
  {
    if stats == [] then 0
    else FwdOverruns(stats[..|stats| - 1]) + (if stats[|stats| - 1].fwdRes > FwdResidualLimit then 1 else 0)
  }

  /** The number of batches whose backward residual exceeded its limit. */
  function BwdOverruns(stats: seq<BatchStats>): nat
  {
    if stats == [] then 0
    else BwdOverruns(stats[..|stats| - 1]) + (if stats[|stats| - 1].bwdRes > BwdResidualLimit then 1 else 0)
  }

  /** `train(...)`, lines 93-164: `used[i]` holds the caps batch `i` is solved
      with. Each batch runs with the initial caps plus one for every earlier
      batch that overran its limit, and the epoch hands back exactly the caps
      it started with. */
  method TrainEpoch(initial: IterCaps, stats: seq<BatchStats>) returns (used: seq<IterCaps>, final: IterCaps)
    ensures |used| == |stats|
    ensures forall i :: 0 <= i < |used| ==>
      used[i].fwd == initial.fwd + FwdOverruns(stats[..i]) && used[i].bwd == initial.bwd + BwdOverruns(stats[..i])
    ensures final == initial
  {
    var defaults := initial;
    var caps := initial;
    used := [];
    var i := 0;
    while i < |stats|
      invariant 0 <= i <= |stats|
      invariant |used| == i
      invariant caps.fwd == initial.fwd + FwdOverruns(stats[..i])
      invariant caps.bwd == initial.bwd + BwdOverruns(stats[..i])
      invariant forall j :: 0 <= j < i ==>
        used[j].fwd == initial.fwd + FwdOverruns(stats[..j]) && used[j].bwd == initial.bwd + BwdOverruns(stats[..j])
    {
      used := used + [caps];
      caps := AfterBatch(caps, stats[i]);
      assert stats[..i + 1][..i] == stats[..i];
      i := i + 1;
    }
    final := defaults;
  }

  /** Caps never shrink during an epoch: every batch runs with at least the
      initial caps, and a later batch with at least the caps of an earlier one. */
  lemma {:induction false} OverrunsMonotone(stats: seq<BatchStats>, i: nat, j: nat)
    requires i <= j <= |stats|
    ensures FwdOverruns(stats[..i]) <= FwdOverruns(stats[..j])
    ensures BwdOverruns(stats[..i]) <= BwdOverruns(stats[..j])
    decreases j - i
  {
    if i < j {
      OverrunsMonotone(stats, i, j - 1);
      assert stats[..j][..j - 1] == stats[..j - 1];
    }
  }

  /** Batches that all stay within the limits leave the caps untouched. */
  lemma {:induction false} NoOverrunsNoGrowth(stats: seq<BatchStats>)
    requires forall i :: 0 <= i < |stats| ==>
      stats[i].fwdRes <= FwdResidualLimit && stats[i].bwdRes <= BwdResidualLimit
    ensures FwdOverruns(stats) == 0 && BwdOverruns(stats) == 0
  {
    if stats != [] {
      NoOverrunsNoGrowth(stats[..|stats| - 1]);
    }
  }

  // ------------------------------------------------ test and epochs

  /** The caps used while testing and the caps left afterwards. */
  datatype TestCaps = TestCaps(during: IterCaps, after: IterCaps)

  /** `test(...)`, lines 187-211: the forward solve runs with ten iterations,
      the backward cap is not touched, and the forward cap is put back. */
  function Test(caps: IterCaps): (r: TestCaps)
    ensures r.during.fwd == TestFwdIters && r.during.bwd == caps.bwd
    ensures r.after == caps
  {
    var defaultFwd := caps.fwd;
    var during := caps.(fwd := TestFwdIters);
    TestCaps(during, during.(fwd := defaultFwd))
  }

  /** How a run of the epoch loop ends. */
  datatype RunEnd =
    | Completed
    | ZeroLogInterval  // `batch_idx % log_interval` divides by zero (line 151)
    | NoTrainBatches   // the epoch report reads an unbound `loss` (lines 166-171)
    | NoTestData       // the test report divides by `len(test_loader.dataset)` (line 217)
    | TooFewEpochs     // `stats.stdev` of fewer than two epoch times (line 336)

  /** No epoch is without batches. */
  predicate AllTrainable(epochs: seq<seq<BatchStats>>)
  {
    forall e :: 0 <= e < |epochs| ==> epochs[e] != []
  }

  /** Lines 163-336: `epochs[e]` are the residuals of epoch `e`'s batches,
      `testSetEmpty` says whether the test loader has no data, and
      `logInterval` is `--log-interval`. Every epoch trains with the caps the
      network was built with, and every test runs with ten forward
      iterations and the original backward cap; the caps never drift from
      one epoch to the next.

      The run ends early at the first pass that raises: the first batch of
      the first epoch when the log interval is zero (after its caps were
      raised, which then stay raised), an epoch without batches (after
      `train` put the caps back), or the first test on an empty test set
      (after `test` put the caps back). A loop that finishes still fails
      with fewer than two epochs. `trainStarts` and `testCaps` list the
      caps of the training and test passes that started. */
  method RunEpochs(initial: IterCaps, epochs: seq<seq<BatchStats>>, testSetEmpty: bool, logInterval: int)
    returns (trainStarts: seq<IterCaps>, testCaps: seq<IterCaps>, final: IterCaps, end: RunEnd)
    ensures end == ZeroLogInterval <==> logInterval == 0 && |epochs| > 0 && epochs[0] != []
    ensures end == NoTestData <==> testSetEmpty && logInterval != 0 && |epochs| > 0 && epochs[0] != []
    ensures end == NoTrainBatches <==>
      !AllTrainable(epochs) && (epochs[0] == [] || (logInterval != 0 && !testSetEmpty))
    ensures end == TooFewEpochs <==>
      AllTrainable(epochs) && |epochs| < 2 && (|epochs| == 0 || (logInterval != 0 && !testSetEmpty))
    ensures end == Completed <==> AllTrainable(epochs) && |epochs| >= 2 && logInterval != 0 && !testSetEmpty
    ensures end in {Completed, TooFewEpochs} ==> |trainStarts| == |testCaps| == |epochs|
    ensures end in {ZeroLogInterval, NoTestData} ==> |trainStarts| == 1
    ensures end == ZeroLogInterval ==> |testCaps| == 0 && final == AfterBatch(initial, epochs[0][0])
    ensures end == NoTestData ==> |testCaps| == 1
    ensures end == NoTrainBatches ==> (1 <= |trainStarts| <= |epochs| && epochs[|trainStarts| - 1] == []
      && |testCaps| == |trainStarts| - 1)
    ensures forall e :: 0 <= e < |trainStarts| - 1 ==> epochs[e] != []
    ensures forall e :: 0 <= e < |trainStarts| ==> trainStarts[e] == initial
    ensures forall e :: 0 <= e < |testCaps| ==> testCaps[e] == initial.(fwd := TestFwdIters)
    ensures end != ZeroLogInterval ==> final == initial
  {
    var caps := initial;
    trainStarts, testCaps := [], [];
    var e := 0;
    while e < |epochs|
      invariant 0 <= e <= |epochs|
      invariant |trainStarts| == |testCaps| == e
      invariant caps == initial
      invariant e > 0 ==> logInterval != 0 && !testSetEmpty
      invariant forall k :: 0 <= k < e ==> epochs[k] != []
      invariant forall k :: 0 <= k < e ==> trainStarts[k] == initial
      invariant forall k :: 0 <= k < e ==> testCaps[k] == initial.(fwd := TestFwdIters)
    {
      trainStarts := trainStarts + [caps];
      if epochs[e] != [] && logInterval == 0 {
        final, end := AfterBatch(caps, epochs[e][0]), ZeroLogInterval;
        return;
      }
      var _, afterTrain := TrainEpoch(caps, epochs[e]);
      if epochs[e] == [] {
        final, end := afterTrain, NoTrainBatches;
        return;
      }
      var t := Test(afterTrain);
      testCaps := testCaps + [t.during];
      if testSetEmpty {
        final, end := t.after, NoTestData;
        return;
      }
      caps := t.after;
      e := e + 1;
    }
    final := caps;
    end := if |epochs| < 2 then TooFewEpochs else Completed;
  }
}

=== FILE: nested_iteration.dfy ===
/** The nested-iteration set-up of examples/mnist/main_mgopt.py: the step
    count of every nested-iteration level, the per-rank step counts the
    networks are built with, one network configuration and one optimizer per
    level, and whether the MG/Opt solve runs.

    `ni_steps` lists the levels coarse to fine (its last entry is `steps`);
    `local_ni_steps`, the networks and the optimizers run fine to coarse. The
    solver `mgopt_solver` is not part of this model; what is modelled is
    what the driver hands to it. */
module NestedIteration {
  import opened IntMath
  import opened Outcomes
  import opened ParallelNet
  import ParseArgs

  predicate NonDecreasing(s: seq<nat>)
  {
    forall i, j :: 0 <= i < j < |s| ==> s[i] <= s[j]
  }

  predicate NonIncreasing(s: seq<nat>)
  {
    forall i, j :: 0 <= i < j < |s| ==> s[i] >= s[j]
  }

  /** Line 130 before the filter: level `i` of `levels` gets
      `int(steps / rfactor ** (levels - 1 - i))`. */
  function RawNiSteps(steps: nat, rfactor: nat, levels: nat): (r: seq<nat>)
    requires rfactor >= 1
    ensures |r| == levels
    ensures levels >= 1 ==> r[levels - 1] == steps
    ensures forall i :: 0 <= i < levels ==> r[i] <= steps
    ensures NonDecreasing(r)
  {
    var r := seq(levels, i requires 0 <= i < levels => LevelSteps(steps, rfactor, levels - 1 - i));
    forall i, j | 0 <= i < j < levels
      ensures r[i] <= r[j]
    {
      LevelStepsShrink(steps, rfactor, levels - 1 - j, levels - 1 - i);
    }
    forall i | 0 <= i < levels
      ensures r[i] <= steps
    {
      LevelStepsShrink(steps, rfactor, 0, levels - 1 - i);
    }
    r
  }

  /** Entry `i` of the raw schedule is `steps / rfactor^(levels-1-i)`,
      rounded down. */
  lemma RawNiStepsEntry(steps: nat, rfactor: nat, levels: nat, i: nat)
    requires rfactor >= 1 && i < levels
    ensures var r := RawNiSteps(steps, rfactor, levels)[i];
      r * Pow(rfactor, levels - 1 - i) <= steps < (r + 1) * Pow(rfactor, levels - 1 - i)
  {
    LevelStepsIsFloor(steps, rfactor, levels - 1 - i);
  }

  /** A coarser level never has more steps than a finer one. */
  lemma LevelStepsShrink(steps: nat, rfactor: nat, k1: nat, k2: nat)
    requires rfactor >= 1 && k1 <= k2
    ensures LevelSteps(steps, rfactor, k2) <= LevelSteps(steps, rfactor, k1)
    ensures LevelSteps(steps, rfactor, 0) == steps
  {
    PowMonotone(rfactor, k1, k2);
    PowPositive(rfactor, k1);
    DivMonotoneDivisor(steps, Pow(rfactor, k1), Pow(rfactor, k2));
  }

  /** Steps of the level `k` refinements below the finest,
      `int(steps / rfactor ** k)`: never more than `steps`, and all of them
      at the finest level. */
  function LevelSteps(steps: nat, rfactor: nat, k: nat): (r: nat)
    requires rfactor >= 1
    ensures r <= steps
    ensures k == 0 ==> r == steps
  {
    PowPositive(rfactor, k);
    DivMonotoneDivisor(steps, 1, Pow(rfactor, k));
    steps / Pow(rfactor, k)
  }

  /** The level's step count is the largest count that `rfactor^k` times
      over still fits in `steps`. */
  lemma LevelStepsIsFloor(steps: nat, rfactor: nat, k: nat)
    requires rfactor >= 1
    ensures var r := LevelSteps(steps, rfactor, k);
      r * Pow(rfactor, k) <= steps < (r + 1) * Pow(rfactor, k)
  {
    PowPositive(rfactor, k);
    var d := Pow(rfactor, k);
    assert steps == (steps / d) * d + steps % d;
  }

  /** Line 131: `ni_steps[ni_steps != 0]`. */
  function DropZeros(s: seq<nat>): (r: seq<nat>)
    ensures |r| <= |s|
    ensures forall i :: 0 <= i < |r| ==> r[i] != 0
    ensures forall x :: x in r <==> x in s && x != 0
    ensures multiset(r) == multiset(s)[0 := 0]
  {
    if s == [] then []
    else
      assert s == [s[0]] + s[1..];
      if s[0] == 0 then DropZeros(s[1..])
      else [s[0]] + DropZeros(s[1..])
  }

  /** Dropping zeros keeps the order of what remains. */
  lemma {:induction false} DropZerosSorted(s: seq<nat>)
    requires NonDecreasing(s)
    ensures NonDecreasing(DropZeros(s))
  {
    if s != [] {
      DropZerosSorted(s[1..]);
      var rest := DropZeros(s[1..]);
      if s[0] != 0 {
        forall j | 0 <= j < |rest|
          ensures s[0] <= rest[j]
        {
          assert rest[j] in s[1..];
        }
      }
    }
  }

  /** A non-zero last entry survives the filter as the last entry. */
  lemma {:induction false} DropZerosLast(s: seq<nat>)
    ensures |s| > 0 && s[|s| - 1] != 0 ==>
      |DropZeros(s)| > 0 && DropZeros(s)[|DropZeros(s)| - 1] == s[|s| - 1]
  {
    if |s| > 1 {
      DropZerosLast(s[1..]);
    }
  }

  /** Dropping zeros keeps every entry within a bound the input keeps. */
  lemma DropZerosBounded(s: seq<nat>, bound: nat)
    requires forall i :: 0 <= i < |s| ==> s[i] <= bound
    ensures forall i :: 0 <= i < |DropZeros(s)| ==> DropZeros(s)[i] <= bound
  {
    var r := DropZeros(s);
    forall i | 0 <= i < |r|
      ensures r[i] <= bound
    {
      assert r[i] in s;
    }
  }

  /** A sequence of zeros is filtered away entirely. */
  lemma {:induction false} DropZerosAllZeros(s: seq<nat>)
    requires forall i :: 0 <= i < |s| ==> s[i] == 0
    ensures DropZeros(s) == []
  {
    if s != [] {
      DropZerosAllZeros(s[1..]);
    }
  }

  /** A sequence without zeros passes the filter unchanged. */
  lemma {:induction false} DropZerosNoZeros(s: seq<nat>)
    requires forall i :: 0 <= i < |s| ==> s[i] != 0
    ensures DropZeros(s) == s
  {
    if s != [] {
      DropZerosNoZeros(s[1..]);
    }
  }

  /** Lines 130-131: `ni_steps`, coarse to fine. */
  function NiSteps(steps: nat, rfactor: nat, levels: nat): (r: seq<nat>)
    requires rfactor >= 1
    ensures |r| <= levels
    ensures forall i :: 0 <= i < |r| ==> 0 < r[i] <= steps
    ensures NonDecreasing(r)
    ensures steps > 0 && levels >= 1 ==> |r| > 0 && r[|r| - 1] == steps
    ensures multiset(r) == multiset(RawNiSteps(steps, rfactor, levels))[0 := 0]
  {
    var raw := RawNiSteps(steps, rfactor, levels);
    DropZerosSorted(raw);
    DropZerosLast(raw);
    DropZerosBounded(raw, steps);
    DropZeros(raw)
  }

  /** Line 132: `ni_steps` reversed, each entry divided by `procs` and
      truncated. */
  function LocalNiSteps(niSteps: seq<nat>, procs: nat): (r: seq<nat>)
    requires procs >= 1
    ensures |r| == |niSteps|
    ensures forall i :: 0 <= i < |r| ==> r[i] == niSteps[|niSteps| - 1 - i] / procs
  {
    if niSteps == [] then [] else LocalNiSteps(niSteps[1..], procs) + [niSteps[0] / procs]
  }

  /** Fine to coarse, the per-rank counts never grow, and the first is the
      finest level's `steps / procs`. */
  lemma LocalNiStepsShape(steps: nat, rfactor: nat, levels: nat, procs: nat)
    requires rfactor >= 1 && procs >= 1
    requires steps > 0 && levels >= 1
    ensures var local := LocalNiSteps(NiSteps(steps, rfactor, levels), procs);
      |local| > 0 && local[0] == steps / procs && NonIncreasing(local)
  {
    var ni := NiSteps(steps, rfactor, levels);
    var local := LocalNiSteps(ni, procs);
    forall i, j | 0 <= i < j < |local|
      ensures local[i] >= local[j]
    {
      DivMonotoneNumerator(ni[|ni| - 1 - j], ni[|ni| - 1 - i], procs);
    }
  }

  /** Lines 137-161: one network configuration per entry of `local_ni_steps`,
      in the same order. */
  function Networks(localNiSteps: seq<nat>, a: LpArgs): (r: seq<NetConfig>)
    ensures |r| == |localNiSteps|
    ensures forall i :: 0 <= i < |r| ==> r[i].localSteps == localNiSteps[i]
    ensures forall i :: 0 <= i < |r| ==> r[i].skipDowncycle == !a.lpUseDowncycle
    ensures forall i, j :: 0 <= i < |r| && 0 <= j < |r| ==>
      r[i].(localSteps := 0) == r[j].(localSteps := 0)
  {
    seq(|localNiSteps|, i requires 0 <= i < |localNiSteps| => NetConfigFor(a, localNiSteps[i], false))
  }

  /** `("pytorch_sgd", {'lr': lr, 'momentum': 0.9})`. */
  datatype Optimizer = Sgd(lr: real, momentum: real)

  /** Line 165: one optimizer per nested-iteration level. */
  function Optimizers(niSteps: seq<nat>, lr: real): (r: seq<Optimizer>)
    ensures |r| == |niSteps|
    ensures forall i :: 0 <= i < |r| ==> r[i] == Sgd(lr, 0.9)
  {
    seq(|niSteps|, _ => Sgd(lr, 0.9))
  }

  /** Lines 198-202 on the finest level's solver: F-relaxation on level 0 in
      both directions, a final FC relaxation after the forward cycle, and
      relaxation only on coarse grids in both directions. Nothing else is
      changed. */
  function TuneFinestLevel(s: SolverSettings): (r: SolverSettings)
    ensures NumRelaxAt(r.fwdRelax, 0) == 0 && NumRelaxAt(r.bwdRelax, 0) == 0
    ensures forall level: nat :: level > 0 ==>
      NumRelaxAt(r.fwdRelax, level) == NumRelaxAt(s.fwdRelax, level)
      && NumRelaxAt(r.bwdRelax, level) == NumRelaxAt(s.bwdRelax, level)
    ensures r.cycle.fwdFinalFCRelax && r.cycle.bwdRelaxOnlyCg && r.cycle.fwdRelaxOnlyCg
    ensures r.cycle.(fwdFinalFCRelax := s.cycle.fwdFinalFCRelax,
                     bwdRelaxOnlyCg := s.cycle.bwdRelaxOnlyCg,
                     fwdRelaxOnlyCg := s.cycle.fwdRelaxOnlyCg) == s.cycle
    ensures r.(fwdRelax := s.fwdRelax, bwdRelax := s.bwdRelax, cycle := s.cycle) == s
  {
    var relaxed := s.(fwdRelax := SetNumRelaxLevel(s.fwdRelax, 0, 0),
                      bwdRelax := SetNumRelaxLevel(s.bwdRelax, 0, 0));
    relaxed.(cycle := relaxed.cycle.(fwdFinalFCRelax := true,
                                     bwdRelaxOnlyCg := true,
                                     fwdRelaxOnlyCg := true))
  }

  /** Lines 137-202: the solver of every level, finest first. The finest
      level's `--lp-fwd-finefcf`/`--lp-bwd-finefcf` choice is overridden:
      whatever they say, its level 0 only F-relaxes, while its coarser
      levels keep the `--lp-*-nrelax-coarse` counts. With no level at all,
      `mgopt.levels[0]` does not exist. */
  function LevelSolvers(networks: seq<NetConfig>, defaults: SolverSettings): (r: Option<seq<SolverSettings>>)
    ensures r.Some? <==> |networks| > 0
    ensures r.Some? ==> |r.value| == |networks|
    ensures r.Some? ==> NumRelaxAt(r.value[0].fwdRelax, 0) == 0 && NumRelaxAt(r.value[0].bwdRelax, 0) == 0
    ensures r.Some? ==> forall level: nat :: level > 0 ==>
      NumRelaxAt(r.value[0].fwdRelax, level) == networks[0].fwdNrelax
      && NumRelaxAt(r.value[0].bwdRelax, level) == networks[0].bwdNrelax
    ensures r.Some? ==> forall i :: 1 <= i < |networks| ==>
      NumRelaxAt(r.value[i].fwdRelax, 0) == FineRelaxCount(networks[i].fineFwdFcf)
    ensures r.Some? ==> forall i :: 0 <= i < |networks| ==> r.value[i].localSteps == networks[i].localSteps
  {
    if networks == [] then None
    else
      var built := seq(|networks|, i requires 0 <= i < |networks| => ParallelNetSettings(networks[i], defaults));
      Some(built[0 := TuneFinestLevel(built[0])])
  }

  /** The MG/Opt options the driver reads. */
  datatype MgoptArgs = MgoptArgs(
    epochs: int, logInterval: int, mgoptPrintlevel: int, mgoptIter: int, mgoptLevels: int,
    nrelaxPre: int, nrelaxPost: int, nrelaxCoarse: int)

  datatype LineSearch = NoLineSearch(a: real)

  /** The arguments `mgopt_solve` is called with. */
  datatype SolveCall = SolveCall(
    epochs: int, logInterval: int, mgoptTol: real, mgoptIter: int,
    nrelaxPre: int, nrelaxPost: int, nrelaxCoarse: int,
    printLevel: int, mgoptLevels: int, lineSearch: LineSearch)

  /** Lines 208-224: the solve runs only for a positive `mgopt_iter`, with a
      fixed step of 1.0 and a tolerance of zero. */
  function MgoptSolveCall(m: MgoptArgs): (r: Option<SolveCall>)
    ensures r.Some? <==> m.mgoptIter > 0
    ensures r.Some? ==> r.value.lineSearch == NoLineSearch(1.0) && r.value.mgoptTol == 0.0
    ensures r.Some? ==> r.value.mgoptIter == m.mgoptIter && r.value.mgoptLevels == m.mgoptLevels
  {
    if m.mgoptIter > 0 then
      Some(SolveCall(m.epochs, m.logInterval, 0.0, m.mgoptIter,
                     m.nrelaxPre, m.nrelaxPost, m.nrelaxCoarse,
                     m.mgoptPrintlevel, m.mgoptLevels, NoLineSearch(1.0)))
    else None
  }

  /** Everything the driver sets up before training. `finestTuned` says
      whether lines 198-203 found a finest level to tune; without one,
      `mgopt.levels[0]` raises `IndexError` and the run ends before the
      solve, so `solve` is then `None`. */
  datatype Setup = Setup(
    niSteps: seq<nat>, localNiSteps: seq<nat>,
    networks: seq<NetConfig>, optimizers: seq<Optimizer>,
    initEpochs: int, initPrintLevel: int,
    finestTuned: bool, solve: Option<SolveCall>)

  /** Lines 169-170: nested iteration always trains two epochs per level and
      prints at level 1, whatever the command line says. */
  const NestedIterationEpochs: int := 2
  const NestedIterationPrintLevel: int := 1

  /** Lines 130-224 on a communicator of `procs` ranks. */
  function DriverSetup(steps: nat, rfactor: nat, levels: nat, procs: nat,
                       a: LpArgs, lr: real, m: MgoptArgs): (r: Setup)
    requires rfactor >= 1 && procs >= 1
    ensures |r.networks| == |r.optimizers| == |r.niSteps| == |r.localNiSteps| <= levels
    ensures forall i :: 0 <= i < |r.networks| ==>
      r.networks[i].localSteps * procs <= r.niSteps[|r.niSteps| - 1 - i]
    ensures r.initEpochs == NestedIterationEpochs && r.initPrintLevel == NestedIterationPrintLevel
    ensures |r.niSteps| == 0 <==> steps == 0 || levels == 0
    ensures r.finestTuned <==> steps > 0 && levels > 0
    ensures r.solve.Some? <==> r.finestTuned && m.mgoptIter > 0
  {
    var ni := NiSteps(steps, rfactor, levels);
    var local := LocalNiSteps(ni, procs);
    assert forall i :: 0 <= i < |local| ==> local[i] * procs <= ni[|ni| - 1 - i] by {
      forall i | 0 <= i < |local|
        ensures local[i] * procs <= ni[|ni| - 1 - i]
      {
        DivFloor(ni[|ni| - 1 - i], procs);
      }
    }
    NoStepsNoLevels(rfactor, levels);
    var tuned := ni != [];
    Setup(ni, local, Networks(local, a), Optimizers(ni, lr),
          NestedIterationEpochs, NestedIterationPrintLevel,
          tuned, if tuned then MgoptSolveCall(m) else None)
  }

  /** A multiple of `procs` scaled by a positive factor stays a positive
      multiple of `procs`. */
  lemma ScaledMultiple(m: nat, procs: nat, x: nat)
    requires procs >= 1 && m >= 1 && x >= 1 && m % procs == 0
    ensures m * x >= 1 && (m * x) % procs == 0
  {
    var j := m / procs;
    assert m == j * procs;
    MulAssoc(j, procs, x);
    assert m * x == (j * x) * procs;
    MulDivCancel(j * x, procs);
    MulAtLeastOne(m, x);
  }

  /** Under the checks, level `i` (coarse to fine) has
      `(steps / rfactor^(levels-1)) * rfactor^i` steps, a multiple of `procs`
      that is positive unless `steps` is zero. */
  lemma CheckedLevelSteps(steps: nat, rfactor: nat, levels: nat, procs: nat, i: nat)
    requires rfactor >= 1 && procs >= 1 && levels >= 1 && i < levels
    requires ParseArgs.NestedChecksPass(steps, procs, rfactor, levels)
    ensures var s := LevelSteps(steps, rfactor, levels - 1 - i); s % procs == 0 && (s > 0 <==> steps > 0)
  {
    var k := levels - 1 - i;
    PowPositive(rfactor, k);
    if steps == 0 {
      assert LevelSteps(steps, rfactor, k) == 0;
      return;
    }
    var d := Pow(rfactor, levels - 1);
    var m := steps / d;
    PowPositive(rfactor, levels - 1);
    PowPositive(rfactor, i);
    assert steps == m * d;
    assert m >= 1 by {
      if m <= 0 {
        MulMonotone(m, 0, d);
      }
    }
    PowAdd(rfactor, i, k);
    MulAssoc(m, Pow(rfactor, i), Pow(rfactor, k));
    assert steps == (m * Pow(rfactor, i)) * Pow(rfactor, k);
    MulDivCancel(m * Pow(rfactor, i), Pow(rfactor, k));
    ScaledMultiple(m, procs, Pow(rfactor, i));
  }

  /** When the nested-iteration checks of `parse_args` pass, every level's
      steps split evenly over the ranks: each rank's share times `procs` is
      exactly the level's step count. For a positive step count no level is
      dropped; zero steps pass the checks and drop every level. */
  lemma CheckedScheduleIsExact(steps: nat, rfactor: nat, levels: nat, procs: nat)
    requires rfactor >= 1 && procs >= 1 && levels >= 1
    requires ParseArgs.NestedChecksPass(steps, procs, rfactor, levels)
    ensures |NiSteps(steps, rfactor, levels)| == (if steps > 0 then levels else 0)
    ensures var ni := NiSteps(steps, rfactor, levels);
      var local := LocalNiSteps(ni, procs);
      forall i :: 0 <= i < |ni| ==> local[i] * procs == ni[|ni| - 1 - i]
  {
    if steps == 0 {
      NoStepsNoLevels(rfactor, levels);
      return;
    }
    var raw := RawNiSteps(steps, rfactor, levels);
    forall i | 0 <= i < levels
      ensures raw[i] > 0 && raw[i] % procs == 0
    {
      CheckedLevelSteps(steps, rfactor, levels, procs, i);
    }
    DropZerosNoZeros(raw);
    var ni := NiSteps(steps, rfactor, levels);
    assert ni == raw;
    var local := LocalNiSteps(ni, procs);
    forall i | 0 <= i < levels
      ensures local[i] * procs == ni[levels - 1 - i]
    {
      ExactQuotient(ni[levels - 1 - i], procs);
    }
  }


  /** The per-rank counts of the schedule `[1, 2, 4]` on 4 ranks. */
  lemma StarvedShares()
    ensures LocalNiSteps([1, 2, 4], 4) == [1, 0, 0]
  {
    assert [1, 2, 4][1..] == [2, 4] && [2, 4][1..] == [4];
  }

  /** The raw schedule of 4 steps, refinement factor 2 and 3 levels. */
  lemma RawScheduleOfFour()
    ensures RawNiSteps(4, 2, 3) == [1, 2, 4]
  {
    assert Pow(2, 2) == 4 && Pow(2, 1) == 2 && Pow(2, 0) == 1;
    assert LevelSteps(4, 2, 2) == 1 && LevelSteps(4, 2, 1) == 2 && LevelSteps(4, 2, 0) == 4;
  }

  /** Zero steps leave no level at all. */
  lemma NoStepsNoLevels(rfactor: nat, levels: nat)
    requires rfactor >= 1
    ensures NiSteps(0, rfactor, levels) == []
  {
    DropZerosAllZeros(RawNiSteps(0, rfactor, levels));
  }

  /** Without those checks a coarse level can leave ranks with no steps at
      all: 4 steps, refinement factor 2, 3 levels on 4 ranks give
      `ni_steps == [1, 2, 4]` and per-rank counts `[1, 0, 0]`. */
  lemma UncheckedScheduleStarvesRanks()
    ensures NiSteps(4, 2, 3) == [1, 2, 4]
    ensures LocalNiSteps(NiSteps(4, 2, 3), 4) == [1, 0, 0]
    ensures !ParseArgs.NestedChecksPass(4, 4, 2, 3)
  {
    RawScheduleOfFour();
    DropZerosNoZeros([1, 2, 4]);
    assert ParseArgs.CoarsestFactor(2, 3) == 4 by {
      assert Pow(2, 2) == 4;
    }
    assert NiSteps(4, 2, 3) == [1, 2, 4];
    StarvedShares();
  }
}

=== FILE: outcomes.dfy ===
/** The success-or-failure value every fallible operation of the model returns:
    a Python exception, an `IndexError` or a `sys.exit` on a bad configuration
    becomes a `Err` carrying what went wrong. */
module Outcomes {

  datatype Result<+T, +E> = Ok(value: T) | Err(error: E)

  datatype Option<+T> = None | Some(value: T)
}

=== FILE: parallel_net.dfy ===
/** The network wrapper of examples/tiny_imagenet/utils.py: the keyword
    arguments the drivers hand to `ParallelNet`, the solver settings its
    constructor derives from them, and the shape produced by `OpenLayer`.

    `LayerParallel` itself is not part of this model: its setters are modelled
    as updates of a `SolverSettings` value, in the order the constructor calls
    them. The constructor `LayerParallel(..., max_iters=m)` is taken to set
    both iteration caps to `m`; the settings it is not given keep whatever
    default `LayerParallel` has, which is a parameter here. */
module ParallelNet {
  import opened Outcomes

  /** The `--lp-*` and architecture options the drivers forward. */
  datatype LpArgs = LpArgs(
    channels: int, tf: real,
    lpFwdLevels: int, lpBwdLevels: int,
    lpIters: int, lpFwdIters: int,
    lpPrint: int, lpBraidPrint: int,
    lpFwdCfactor: int, lpBwdCfactor: int,
    lpFwdNrelaxCoarse: int, lpBwdNrelaxCoarse: int,
    lpFwdFinefcf: bool, lpBwdFinefcf: bool,
    lpFwdFinalrelax: bool, lpUseDowncycle: bool, lpUseFmg: bool,
    lpBwdRelaxonlycg: bool, lpFwdRelaxonlycg: bool,
    lpUseCrelaxWt: real,
    diffScale: real, activation: string)

  /** The keyword arguments of `ParallelNet.__init__`. */
  datatype NetConfig = NetConfig(
    channels: int, localSteps: int, tf: real,
    maxFwdLevels: int, maxBwdLevels: int,
    maxIters: int, maxFwdIters: int,
    printLevel: int, braidPrintLevel: int,
    fwdCfactor: int, bwdCfactor: int,
    fineFwdFcf: bool, fineBwdFcf: bool,
    fwdNrelax: int, bwdNrelax: int,
    skipDowncycle: bool, fmg: bool,
    fwdRelaxOnlyCg: bool, bwdRelaxOnlyCg: bool,
    cwt: real, fwdFinalrelax: bool,
    diffScale: real, activation: string)

  /** Defaults of `ParallelNet.__init__` for the two options only some drivers pass. */
  const DefaultDiffScale: real := 0.0
  const DefaultActivation: string := "tanh"

  /** The keyword dictionary a driver builds for `local_steps` steps per rank;
      `withStepOptions` says whether it also passes `diff_scale` and
      `activation` (main_lp.py does, main_mgopt.py does not). */
  function NetConfigFor(a: LpArgs, localSteps: int, withStepOptions: bool): (c: NetConfig)
    ensures c.localSteps == localSteps
    ensures c.channels == a.channels && c.tf == a.tf
    ensures c.maxFwdLevels == a.lpFwdLevels && c.maxBwdLevels == a.lpBwdLevels
    ensures c.skipDowncycle == !a.lpUseDowncycle
    ensures c.maxIters == a.lpIters && c.maxFwdIters == a.lpFwdIters
    ensures c.printLevel == a.lpPrint && c.braidPrintLevel == a.lpBraidPrint
    ensures c.fwdCfactor == a.lpFwdCfactor && c.bwdCfactor == a.lpBwdCfactor
    ensures c.fineFwdFcf == a.lpFwdFinefcf && c.fineBwdFcf == a.lpBwdFinefcf
    ensures c.fwdNrelax == a.lpFwdNrelaxCoarse && c.bwdNrelax == a.lpBwdNrelaxCoarse
    ensures c.fmg == a.lpUseFmg
    ensures c.fwdRelaxOnlyCg == a.lpFwdRelaxonlycg && c.bwdRelaxOnlyCg == a.lpBwdRelaxonlycg
    ensures c.cwt == a.lpUseCrelaxWt && c.fwdFinalrelax == a.lpFwdFinalrelax
    ensures withStepOptions ==> c.diffScale == a.diffScale && c.activation == a.activation
    ensures !withStepOptions ==> c.diffScale == DefaultDiffScale && c.activation == DefaultActivation
  {
    NetConfig(
      channels := a.channels, localSteps := localSteps, tf := a.tf,
      maxFwdLevels := a.lpFwdLevels, maxBwdLevels := a.lpBwdLevels,
      maxIters := a.lpIters, maxFwdIters := a.lpFwdIters,
      printLevel := a.lpPrint, braidPrintLevel := a.lpBraidPrint,
      fwdCfactor := a.lpFwdCfactor, bwdCfactor := a.lpBwdCfactor,
      fineFwdFcf := a.lpFwdFinefcf, fineBwdFcf := a.lpBwdFinefcf,
      fwdNrelax := a.lpFwdNrelaxCoarse, bwdNrelax := a.lpBwdNrelaxCoarse,
      skipDowncycle := !a.lpUseDowncycle, fmg := a.lpUseFmg,
      fwdRelaxOnlyCg := a.lpFwdRelaxonlycg, bwdRelaxOnlyCg := a.lpBwdRelaxonlycg,
      cwt := a.lpUseCrelaxWt, fwdFinalrelax := a.lpFwdFinalrelax,
      diffScale := if withStepOptions then a.diffScale else DefaultDiffScale,
      activation := if withStepOptions then a.activation else DefaultActivation)
  }

  // ------------------------------------------------ relaxation counts

  /** Relaxation sweeps per level: a count for every level, and the levels
      that were given their own count afterwards. */
  datatype RelaxCounts = RelaxCounts(all: int, perLevel: map<nat, int>)

  /** The number of sweeps level `level` performs. */
  function NumRelaxAt(rc: RelaxCounts, level: nat): int
  {
    if level in rc.perLevel then rc.perLevel[level] else rc.all
  }

  /** `setFwdNumRelax(n)` / `setBwdNumRelax(n)`: every level gets `n`,
      including levels that had a count of their own. */
  function SetNumRelax(rc: RelaxCounts, n: int): (r: RelaxCounts)
    ensures forall level: nat :: NumRelaxAt(r, level) == n
  {
    RelaxCounts(n, map[])
  }

  /** `setFwdNumRelax(n, level=l)`: only level `l` changes. */
  function SetNumRelaxLevel(rc: RelaxCounts, n: int, level: nat): (r: RelaxCounts)
    ensures NumRelaxAt(r, level) == n
    ensures forall k: nat :: k != level ==> NumRelaxAt(r, k) == NumRelaxAt(rc, k)
  {
    rc.(perLevel := rc.perLevel[level := n])
  }

  /** Level 0 relaxes once (FCF) when fine-grid FCF is asked for and not at
      all (F-relaxation only) otherwise. */
  function FineRelaxCount(fineFcf: bool): (r: int)
    ensures 0 <= r <= 1 && (r == 1 <==> fineFcf)
  {
    if fineFcf then 1 else 0
  }

  // ------------------------------------------------ solver settings

  /** The forward and backward iteration caps of the solver. */
  datatype IterCaps = IterCaps(fwd: int, bwd: int)

  /** Cycle options of the solver. */
  datatype CycleOptions = CycleOptions(
    fwdCfactor: int, bwdCfactor: int,
    skipDowncycle: bool,
    fwdRelaxOnlyCg: bool, bwdRelaxOnlyCg: bool,
    cRelaxWt: real, minCoarse: int,
    fwdFinalFCRelax: bool, fmg: bool)

  /** What the constructor leaves configured in the `LayerParallel` object. */
  datatype SolverSettings = SolverSettings(
    localSteps: int, tf: real,
    maxFwdLevels: int, maxBwdLevels: int,
    caps: IterCaps,
    printLevel: int, braidPrintLevel: int,
    cycle: CycleOptions,
    fwdRelax: RelaxCounts, bwdRelax: RelaxCounts)

  /** Lines 117-119: both caps start at `max_iters`; a positive
      `max_fwd_iters` then replaces the forward cap. */
  function InitialCaps(c: NetConfig): (caps: IterCaps)
    ensures caps.fwd == (if c.maxFwdIters > 0 then c.maxFwdIters else c.maxIters)
    ensures caps.bwd == c.maxIters
  {
    var constructed := IterCaps(c.maxIters, c.maxIters);
    if c.maxFwdIters > 0 then constructed.(fwd := c.maxFwdIters) else constructed
  }

  /** Lines 123-135: the cycle options the constructor sets; final FC
      relaxation and FMG are only ever switched on. */
  function ConfigureCycle(c: NetConfig, defaults: CycleOptions): (o: CycleOptions)
    ensures o.skipDowncycle == c.skipDowncycle
    ensures o.minCoarse == 2
    ensures o.fwdCfactor == c.fwdCfactor && o.bwdCfactor == c.bwdCfactor
    ensures o.fwdRelaxOnlyCg == c.fwdRelaxOnlyCg && o.bwdRelaxOnlyCg == c.bwdRelaxOnlyCg
    ensures o.cRelaxWt == c.cwt
    ensures o.fmg == (c.fmg || defaults.fmg)
    ensures o.fwdFinalFCRelax == (c.fwdFinalrelax || defaults.fwdFinalFCRelax)
  {
    var o1 := defaults.(fwdCfactor := c.fwdCfactor, bwdCfactor := c.bwdCfactor,
                        skipDowncycle := c.skipDowncycle,
                        bwdRelaxOnlyCg := c.bwdRelaxOnlyCg, fwdRelaxOnlyCg := c.fwdRelaxOnlyCg,
                        cRelaxWt := c.cwt, minCoarse := 2);
    var o2 := if c.fwdFinalrelax then o1.(fwdFinalFCRelax := true) else o1;
    if c.fmg then o2.(fmg := true) else o2
  }

  /** Lines 137-146: the global count first, then the level-0 count. */
  function ConfigureRelax(rc: RelaxCounts, nrelax: int, fineFcf: bool): (r: RelaxCounts)
    ensures NumRelaxAt(r, 0) == FineRelaxCount(fineFcf)
    ensures forall level: nat :: level > 0 ==> NumRelaxAt(r, level) == nrelax
  {
    SetNumRelaxLevel(SetNumRelax(rc, nrelax), FineRelaxCount(fineFcf), 0)
  }

  /** Lines 117-146: the settings the constructor leaves, starting from
      `LayerParallel`'s own defaults. */
  function ParallelNetSettings(c: NetConfig, defaults: SolverSettings): (s: SolverSettings)
    ensures s.localSteps == c.localSteps && s.tf == c.tf
    ensures s.maxFwdLevels == c.maxFwdLevels && s.maxBwdLevels == c.maxBwdLevels
    ensures s.printLevel == c.printLevel && s.braidPrintLevel == c.braidPrintLevel
    ensures s.caps.fwd == (if c.maxFwdIters > 0 then c.maxFwdIters else c.maxIters)
    ensures s.caps.bwd == c.maxIters
    ensures s.cycle.minCoarse == 2
    ensures s.cycle.skipDowncycle == c.skipDowncycle
    ensures s.cycle.fwdCfactor == c.fwdCfactor && s.cycle.bwdCfactor == c.bwdCfactor
    ensures s.cycle.fwdRelaxOnlyCg == c.fwdRelaxOnlyCg && s.cycle.bwdRelaxOnlyCg == c.bwdRelaxOnlyCg
    ensures s.cycle.cRelaxWt == c.cwt
    ensures s.cycle.fmg == (c.fmg || defaults.cycle.fmg)
    ensures s.cycle.fwdFinalFCRelax == (c.fwdFinalrelax || defaults.cycle.fwdFinalFCRelax)
    ensures NumRelaxAt(s.fwdRelax, 0) == FineRelaxCount(c.fineFwdFcf)
    ensures NumRelaxAt(s.bwdRelax, 0) == FineRelaxCount(c.fineBwdFcf)
    ensures forall level: nat :: level > 0 ==> NumRelaxAt(s.fwdRelax, level) == c.fwdNrelax
    ensures forall level: nat :: level > 0 ==> NumRelaxAt(s.bwdRelax, level) == c.bwdNrelax
  {
    SolverSettings(
      localSteps := c.localSteps, tf := c.tf,
      maxFwdLevels := c.maxFwdLevels, maxBwdLevels := c.maxBwdLevels,
      caps := InitialCaps(c),
      printLevel := c.printLevel, braidPrintLevel := c.braidPrintLevel,
      cycle := ConfigureCycle(c, defaults.cycle),
      fwdRelax := ConfigureRelax(defaults.fwdRelax, c.fwdNrelax, c.fineFwdFcf),
      bwdRelax := ConfigureRelax(defaults.bwdRelax, c.bwdNrelax, c.fineBwdFcf))
  }

  // ------------------------------------------------ OpenLayer

  /** `x.repeat(s)` with one repeat count per dimension: each dimension is
      multiplied by its count. */
  function RepeatShape(shape: seq<nat>, reps: seq<nat>): (r: seq<nat>)
    requires |reps| == |shape|
    ensures |r| == |shape|
    ensures forall i :: 0 <= i < |r| ==> r[i] == shape[i] * reps[i]
  {
    if shape == [] then [] else [shape[0] * reps[0]] + RepeatShape(shape[1..], reps[1..])
  }

  /** `[1] * n`. */
  function Ones(n: nat): (r: seq<nat>)
    ensures |r| == n && forall i :: 0 <= i < n ==> r[i] == 1
  {
    seq(n, _ => 1)
  }

  /** `OpenLayer.forward` on shapes: `s[1] = channels` fails with `IndexError`
      on a tensor of fewer than two dimensions. */
  function OpenLayerShape(shape: seq<nat>, channels: nat): (r: Option<seq<nat>>)
    ensures r.Some? <==> |shape| >= 2
    ensures r.Some? ==> |r.value| == |shape| && r.value[1] == shape[1] * channels
    ensures r.Some? ==> forall i :: 0 <= i < |shape| && i != 1 ==> r.value[i] == shape[i]
  {
    if |shape| < 2 then None else Some(RepeatShape(shape, Ones(|shape|)[1 := channels]))
  }
}

=== FILE: parse_args.dfy ===
/** The configuration checks of `parse_args` in
    examples/tiny_imagenet/utils.py, run on every rank before any network
    is built. Argument parsing itself is not modelled: the input is the
    already-parsed option values, and `compute_levels` (which is not part of
    this model) is a parameter. A rejected configuration ends the run with
    `sys.exit(0)`; here it is an `Err` naming the failed check. */
module ParseArgs {
  import opened IntMath
  import opened Outcomes
  import opened ParallelNet

  /** The parsed options the checks read. `niLevels` and `niRfactor` are only
      parsed when MG/Opt options are on. */
  datatype CliArgs = CliArgs(steps: int, lp: LpArgs, niLevels: int, niRfactor: int)

  datatype ConfigError =
    | StepsNotMultipleOfProcs(steps: int, procs: nat)
    | StepsNotMultipleOfCoarsestLevel(steps: int, rfactor: int, coarsestExponent: nat)
    | CoarsestLevelDoesNotFitProcs
    | ZeroDivision  // `steps % 0**k` raises before any message is printed

  /** The smallest coarse grid `compute_levels` is asked for. */
  const MinCoarseSize: int := 3

  /** Lines 284-290: a level count of exactly -1 is replaced by
      `compute_levels(steps, 3, cfactor)`; any other value passes through. */
  function ResolveLevels(levels: int, steps: int, cfactor: int, computeLevels: (int, int, int) -> int): (r: int)
    ensures levels != -1 ==> r == levels
    ensures levels == -1 ==> r == computeLevels(steps, MinCoarseSize, cfactor)
  {
    if levels == -1 then computeLevels(steps, MinCoarseSize, cfactor) else levels
  }

  /** `ni_rfactor ** (ni_levels - 1)`: the factor between the finest and the
      coarsest nested-iteration level. */
  function CoarsestFactor(niRfactor: int, niLevels: int): int
    requires niLevels >= 1
  {
    Pow(niRfactor, niLevels - 1)
  }

  /** Lines 299-305 both pass: the factor divides `steps`, and the coarsest
      level's step count is a multiple of `procs`. Passing them implies the
      earlier check that `procs` divides `steps`. */
  predicate NestedChecksPass(steps: int, procs: nat, niRfactor: int, niLevels: int)
    requires procs >= 1 && niLevels >= 1
    ensures NestedChecksPass(steps, procs, niRfactor, niLevels) ==> steps % procs == 0
  {
    var d := CoarsestFactor(niRfactor, niLevels);
    if d != 0 && steps % d == 0 && (steps / d) % procs == 0 then
      CoarsestMultipleFitsProcs(steps, procs, d);
      true
    else false
  }

  lemma CoarsestMultipleFitsProcs(steps: int, procs: nat, d: int)
    requires procs >= 1 && d != 0 && steps % d == 0 && (steps / d) % procs == 0
    ensures steps % procs == 0
  {
    var q := steps / d;
    var j := q / procs;
    assert steps == q * d;
    assert q == j * procs;
    MulAssoc(j, procs, d);
    assert steps == (j * d) * procs;
    MulDivCancel(j * d, procs);
  }

  /** `parse_args(mgopt_on)` after the options are read, on a communicator of
      `procs` ranks. */
  function ParseArgs(a: CliArgs, procs: nat, mgoptOn: bool, computeLevels: (int, int, int) -> int)
    : (r: Result<CliArgs, ConfigError>)
    requires procs >= 1
    requires mgoptOn ==> a.niLevels >= 1
    ensures r.Ok? <==> a.steps % procs == 0 && (mgoptOn ==> NestedChecksPass(a.steps, procs, a.niRfactor, a.niLevels))
    ensures a.steps % procs != 0 ==> r == Err(StepsNotMultipleOfProcs(a.steps, procs))
    ensures mgoptOn && a.steps % procs == 0 && CoarsestFactor(a.niRfactor, a.niLevels) == 0 ==> r == Err(ZeroDivision)
    ensures mgoptOn && a.steps % procs == 0 && r.Err? && r.error != ZeroDivision ==>
      var d := CoarsestFactor(a.niRfactor, a.niLevels);
      (r.error.StepsNotMultipleOfCoarsestLevel? <==> a.steps % d != 0)
    ensures mgoptOn && a.steps % procs == 0 ==>
      var d := CoarsestFactor(a.niRfactor, a.niLevels);
      (d != 0 && a.steps % d != 0 ==>
        r == Err(StepsNotMultipleOfCoarsestLevel(a.steps, a.niRfactor, a.niLevels - 1)))
    ensures mgoptOn && a.steps % procs == 0 ==>
      var d := CoarsestFactor(a.niRfactor, a.niLevels);
      (d != 0 && a.steps % d == 0 && (a.steps / d) % procs != 0 ==> r == Err(CoarsestLevelDoesNotFitProcs))
    ensures r == Err(ZeroDivision) ==> mgoptOn && CoarsestFactor(a.niRfactor, a.niLevels) == 0
    ensures !mgoptOn ==> (r.Ok? <==> a.steps % procs == 0)
    ensures r.Ok? ==> r.value.steps == a.steps && r.value.niLevels == a.niLevels && r.value.niRfactor == a.niRfactor
    ensures r.Ok? ==> r.value.lp == a.lp.(
      lpBwdLevels := ResolveLevels(a.lp.lpBwdLevels, a.steps, a.lp.lpBwdCfactor, computeLevels),
      lpFwdLevels := ResolveLevels(a.lp.lpFwdLevels, a.steps, a.lp.lpFwdCfactor, computeLevels))
  {
    var bwd := ResolveLevels(a.lp.lpBwdLevels, a.steps, a.lp.lpBwdCfactor, computeLevels);
    var fwd := ResolveLevels(a.lp.lpFwdLevels, a.steps, a.lp.lpFwdCfactor, computeLevels);
    var resolved := a.(lp := a.lp.(lpBwdLevels := bwd, lpFwdLevels := fwd));
    if a.steps % procs != 0 then
      Err(StepsNotMultipleOfProcs(a.steps, procs))
    else if !mgoptOn then
      Ok(resolved)
    else
      var d := CoarsestFactor(a.niRfactor, a.niLevels);
      if d == 0 then Err(ZeroDivision)
      else if a.steps % d != 0 then Err(StepsNotMultipleOfCoarsestLevel(a.steps, a.niRfactor, a.niLevels - 1))
      else if (a.steps / d) % procs != 0 then Err(CoarsestLevelDoesNotFitProcs)
      else Ok(resolved)
  }

  /** A zero refinement factor only divides by zero when there is more than
      one nested-iteration level (`0 ** 0 == 1`). */
  lemma ZeroRfactor(levels: int)
    requires levels >= 1
    ensures CoarsestFactor(0, levels) == 0 <==> levels > 1
  {
    if levels > 1 {
      assert Pow(0, levels - 1) == 0 * Pow(0, levels - 2);
    }
  }
}

=== FILE: time_grid.dfy ===
/** Time-grid index arithmetic and the spatial coarsen/refine pair exercised
    by tests/test_layer_parallel.py.

    `getFineTimeIndex` belongs to the multigrid-in-time engine, which is not
    part of this model; `FineTimeIndex` is the definition the test assertions
    pin down: a coarse index is mapped to the fine grid by multiplying it by
    every coarsening factor between its level and level 0.

    `coarsen`/`refine` act on the last dimension of a tensor; a tensor row is
    a `seq<real>` here and the leading dimensions repeat the same operation
    row by row. */
module TimeGrid {
  import opened Outcomes
  import opened IntMath

  // ------------------------------------------------- fine time index

  /** The coarsening factor of every level (`setCFactor(c)`), or one factor
      per level counted from the finest (`setCFactor({0: c0, 1: c1, ...})`). */
  datatype CFactor = Uniform(factor: nat) | PerLevel(factors: seq<nat>)

  /** The levels a factor configuration describes. */
  predicate Describes(cf: CFactor, level: nat)
  {
    cf.PerLevel? ==> level <= |cf.factors|
  }

  /** Factor between level `k` and level `k + 1`. */
  function FactorAt(cf: CFactor, k: nat): nat
    requires Describes(cf, k + 1)
  {
    match cf
    case Uniform(c) => c
    case PerLevel(fs) => fs[k]
  }

  /** `getFineTimeIndex(tidx, level)`: the fine-grid index of point `tidx` of
      level `level`. */
  function FineTimeIndex(cf: CFactor, tidx: int, level: nat): (r: int)
    requires Describes(cf, level)
    ensures level == 0 ==> r == tidx
  {
    if level == 0 then tidx else FineTimeIndex(cf, tidx, level - 1) * FactorAt(cf, level - 1)
  }

  /** Product of a sequence of factors. */
  function Product(s: seq<nat>): nat
  {
    if s == [] then 1 else s[0] * Product(s[1..])
  }

  lemma {:induction false} ProductSnoc(s: seq<nat>, x: nat)
    ensures Product(s + [x]) == Product(s) * x
  {
    if s != [] {
      assert (s + [x])[1..] == s[1..] + [x];
      ProductSnoc(s[1..], x);
      MulAssoc(s[0], Product(s[1..]), x);
    } else {
      assert s + [x] == [x];
    }
  }

  /** A uniform factor `c` maps `tidx` on level `L` to `tidx * c^L`. */
  lemma {:induction false} FineTimeIndexUniform(c: nat, tidx: int, level: nat)
    ensures FineTimeIndex(Uniform(c), tidx, level) == tidx * Pow(c, level)
  {
    if level > 0 {
      FineTimeIndexUniform(c, tidx, level - 1);
      PowAdd(c, level - 1, 1);
      MulAssoc(tidx, Pow(c, level - 1), c);
    }
  }

  /** Per-level factors map `tidx` on level `L` to `tidx * cf[0] * ... * cf[L-1]`. */
  lemma {:induction false} FineTimeIndexPerLevel(factors: seq<nat>, tidx: int, level: nat)
    requires level <= |factors|
    ensures FineTimeIndex(PerLevel(factors), tidx, level) == tidx * Product(factors[..level])
  {
    if level > 0 {
      FineTimeIndexPerLevel(factors, tidx, level - 1);
      assert factors[..level] == factors[..level - 1] + [factors[level - 1]];
      ProductSnoc(factors[..level - 1], factors[level - 1]);
      MulAssoc(tidx, Product(factors[..level - 1]), factors[level - 1]);
    }
  }

  /** The values the test asserts for factors `{0: 4, 1: 3, 2: 2}` and for the
      uniform factor 2. */
  lemma FineTimeIndexTestValues()
    ensures FineTimeIndex(PerLevel([4, 3, 2]), 23, 0) == 23
    ensures FineTimeIndex(PerLevel([4, 3, 2]), 28, 0) == 28
    ensures FineTimeIndex(PerLevel([4, 3, 2]), 23, 1) == 23 * 4
    ensures FineTimeIndex(PerLevel([4, 3, 2]), 23, 3) == 23 * 4 * 3 * 2
    ensures FineTimeIndex(Uniform(2), 28, 3) == 28 * Pow(2, 3)
    ensures FineTimeIndex(Uniform(2), 23, 3) == 23 * Pow(2, 3)
  {
    FineTimeIndexPerLevel([4, 3, 2], 23, 3);
    assert [4, 3, 2][..3] == [4, 3, 2];
    FineTimeIndexUniform(2, 28, 3);
    FineTimeIndexUniform(2, 23, 3);
  }

  // ------------------------------------------------- coarsen and refine

  /** `x[..., start::2]`. */
  function EveryOther(x: seq<real>, start: nat): (r: seq<real>)
    decreases |x| - start
    ensures |r| == if start >= |x| then 0 else (|x| - start + 1) / 2
    ensures forall i :: 0 <= i < |r| ==> r[i] == x[start + 2 * i]
  {
    if start >= |x| then [] else [x[start]] + EveryOther(x, start + 2)
  }

  /** Raised when the two halves of `coarsen` cannot be broadcast together. */
  datatype ShapeError = BroadcastMismatch(left: nat, right: nat)

  /** `0.5 * (a + b)` with torch broadcasting on one dimension: equal sizes
      add entry by entry, a side of size 1 is repeated, anything else fails. */
  function HalfSum(a: seq<real>, b: seq<real>): (r: Result<seq<real>, ShapeError>)
    ensures r.Ok? <==> |a| == |b| || |a| == 1 || |b| == 1
    ensures r.Ok? ==> |r.value| == (if |a| == |b| || |b| == 1 then |a| else |b|)
    ensures r.Ok? && |a| == |b| ==> forall i :: 0 <= i < |a| ==> r.value[i] == 0.5 * (a[i] + b[i])
    ensures r.Ok? && |a| != |b| && |a| == 1 ==> forall i :: 0 <= i < |b| ==> r.value[i] == 0.5 * (a[0] + b[i])
    ensures r.Ok? && |a| != |b| && |b| == 1 ==> forall i :: 0 <= i < |a| ==> r.value[i] == 0.5 * (a[i] + b[0])
  {
    if |a| == |b| then Ok(seq(|a|, i requires 0 <= i < |a| => 0.5 * (a[i] + b[i])))
    else if |a| == 1 then Ok(seq(|b|, i requires 0 <= i < |b| => 0.5 * (a[0] + b[i])))
    else if |b| == 1 then Ok(seq(|a|, i requires 0 <= i < |a| => 0.5 * (a[i] + b[0])))
    else Err(BroadcastMismatch(|a|, |b|))
  }

  /** `coarsen(x, level)`: block average of adjacent pairs. */
  function Coarsen(x: seq<real>): (r: Result<seq<real>, ShapeError>)
    ensures |x| % 2 == 0 ==> r.Ok? && |r.value| == |x| / 2
    ensures |x| % 2 == 0 ==> forall i :: 0 <= i < |x| / 2 ==> r.value[i] == 0.5 * (x[2 * i] + x[2 * i + 1])
    ensures |x| % 2 == 1 ==> (r.Ok? <==> |x| <= 3)
    ensures |x| == 1 ==> r == Ok([])
    ensures |x| == 3 ==> r == Ok([0.5 * (x[0] + x[1]), 0.5 * (x[2] + x[1])])
  {
    var evens, odds := EveryOther(x, 0), EveryOther(x, 1);
    var r := HalfSum(evens, odds);
    assert |x| == 3 ==>
      (&& |evens| == 2 && |odds| == 1 && r.Ok? && |r.value| == 2
       && r.value[0] == 0.5 * (x[0] + x[1]) && r.value[1] == 0.5 * (x[2] + x[1])
       && r.value == [0.5 * (x[0] + x[1]), 0.5 * (x[2] + x[1])]);
    r
  }

  /** `refine(x, level)`: injection, every entry duplicated in place. */
  function Refine(x: seq<real>): (r: seq<real>)
    ensures |r| == 2 * |x|
    ensures forall i :: 0 <= i < |x| ==> r[2 * i] == x[i] && r[2 * i + 1] == x[i]
  {
    if x == [] then [] else [x[0], x[0]] + Refine(x[1..])
  }

  /** Injection followed by block averaging gives back the coarse values. */
  lemma CoarsenRefine(c: seq<real>)
    ensures Coarsen(Refine(c)) == Ok(c)
  {
    var f := Refine(c);
    assert |f| % 2 == 0 && |f| / 2 == |c|;
    var r := Coarsen(f).value;
    forall i | 0 <= i < |c|
      ensures r[i] == c[i]
    {
      assert f[2 * i] == c[i] && f[2 * i + 1] == c[i];
    }
    assert r == c;
  }

  /** The sanity check of the test: coarsening, refining and coarsening again
      lands on the first coarsening. */
  lemma CoarsenRefineCoarsen(x: seq<real>)
    requires Coarsen(x).Ok?
    ensures Coarsen(Refine(Coarsen(x).value)) == Coarsen(x)
  {
    CoarsenRefine(Coarsen(x).value);
  }
}
